=== FILE: README.md ===
# EZohoCRM request and response core, in Dafny

This project models the part of the `EZohoCRM` PHP client that shapes requests
for the Zoho CRM API and checks what comes back. It then proves properties of
that model. The modelled parts are:

- the record serializer `transformRecordsToXmlData`, with its two batch rules
  and its per-value escaping `getEscapedValue`;
- the parameter builders `getBoolean`, `getNewFormat` and `getSelectColumns`,
  and PHP's string cast of a boolean;
- the request every operation sends through `zohoCrmApiCall`: the default
  `SCOPE` and `authtoken` parameters merged under the operation's own with
  `array_merge`;
- the error-envelope check on the decoded body, which raises
  `Error <code>: <message>`;
- every public operation's address, method and parameter list, including the
  guard in `getRelatedRecords`, the fixed `Users` address of `getUsers`, and
  the token request of `generateAuthToken`;
- `convertLead`, with its hand-built two-row document and its switch of the
  active module to Potentials.

The modules follow the program's structure:

| module | file | what it holds |
|---|---|---|
| `Outcomes` | outcomes.dfy | `Option`, the `Outcome` failure type, and the client's error texts |
| `Strings` | strings.dfy | decimal rendering, `implode`/`explode` on one separator, and character search |
| `Entities` | entities.dfy | the entity encoding applied to values, with its decoder |
| `Escaper` | escaper.dfy | `getEscapedValue`, the CDATA wrapper, and an XML reader of character data and CDATA sections that checks what the service reads back |
| `CrmModules` | crm_modules.dfy | the module names, the two module guards, and the URL scheme |
| `Markup` | markup.dfy | the xmlData dialect as a tree, and its rendering |
| `Serializer` | serializer.dfy | `transformRecordsToXmlData`, as a reference function and as the loop the source runs |
| `Params` | params.dfy | PHP's ordered string-keyed arrays, assignment by key, and `array_merge` |
| `Json` | json.dfy | decoded JSON values, and PHP's property access and string conversion on them |
| `Api` | api.dfy | the session, the request `zohoCrmApiCall` builds, the error check, and the print-or-return tail |
| `Client` | client.dfy | one endpoint builder per operation, plus `getMyRecords` as written and as intended |
| `ConvertLead` | convert_lead.dfy | `convertLead` as written and as intended |

The model assumes PHP 5 or 7. That fixes two behaviours: `htmlentities` uses
the flags in force before PHP 8.1, which leave the single quote alone, and
`implode` given a string warns and returns null instead of throwing.

Two behaviours of the code are easy to misread. The model follows the code in
both:

- A batch of more than 100 records fails. The message at EZohoCRM.php:628
  speaks of "the first 100 records", but nothing is truncated and nothing is
  sent.
- A body that is not JSON is not an error. `json_decode` gives null, so the
  `isset` test at EZohoCRM.php:159 finds no envelope, and EZohoCRM.php:165
  returns the raw body. `Api.Interpret` keeps this.

## Model

| member | source | states |
|---|---|---|
| Entities.EncodeChangesIff | EZohoCRM.php:333 | encoding changes a value exactly when it holds one of `& < > "`, so the `$value != htmlentities($value)` test is that condition |
| Entities.DecodeEncode | EZohoCRM.php:334 | the entity encoding is undone by decoding, for every string |
| Escaper.Escape | EZohoCRM.php:332-338 | a value without a special character is unchanged; otherwise GET wraps the encoded value in CDATA, POST wraps the raw value, and any other method leaves it alone |
| Escaper.ReadEncode | EZohoCRM.php:333-334 | an XML reader reads the entity-encoded text of any value back as the value |
| Escaper.PostEscapeRoundTrip | EZohoCRM.php:335-336 | an XML reader reads a POST-escaped value back as the value, when the value holds no `]]>` |
| Escaper.PostEscapeBreaks | EZohoCRM.php:335-336 | the POST-escaped text of `a]]>b` ends its CDATA section at the value's own `]]>`, and an XML reader rejects what follows |
| Escaper.GetEscapeRoundTrip | EZohoCRM.php:333-334 | an XML reader reads any GET-escaped value as its entity encoding, which decodes back to the value |
| Escaper.EscapeSafe | EZohoCRM.php:332-338 | the corrected escaping: the source's result, except that a POST value holding `]]>` is entity-encoded instead of wrapped |
| Escaper.SafePostRoundTrip | EZohoCRM.php:335-336 | an XML reader reads every value back after the corrected POST escaping, `]]>` included |
| Escaper.EscapeInjective | EZohoCRM.php:332-338 | two different values never escape to the same text under one method |
| CrmModules.FromName | EZohoCRM.php:46-62 | a name read back as a module is that module's name |
| CrmModules.NameRoundTrip | EZohoCRM.php:46-62 | every module constant reads back as its module |
| CrmModules.NameIsWord | EZohoCRM.php:46-62 | no module name holds `/`, `(` or `,`, so paths and column lists built from it can be split again |
| CrmModules.ParsePathRoundTrip | EZohoCRM.php:349 | `BASE_URL.module.'/'.operation` reads back as the module and the operation |
| CrmModules.AuthTokenUrlHasNoModule | EZohoCRM.php:92 | the token request address is not under the base URL, so it names no module |
| Strings.SplitJoin | EZohoCRM.php:550 | columns without a comma, joined with commas, split back into the same list |
| Serializer.RecordsDoc | EZohoCRM.php:631-645 | the document's root is the module, it has one row per record numbered from 1 in input order, and one `FL` field per entry keyed by the entry's name, whose text is `getEscapedValue` of the entry's value for the request's method |
| Markup.RowOpenReadsNumber | EZohoCRM.php:635 | a row's opening tag carries its number in decimal, which reads back as that number, so distinct rows open with distinct tags |
| Serializer.FieldTextsReadBack | EZohoCRM.php:636-639 | an XML reader reads every field text back as the record's value: after entity decoding for GET, directly for POST when the value holds no `]]>` |
| Serializer.XmlData | EZohoCRM.php:616-648 | succeeds exactly when the batch passes both rules; the multiple-insert error comes first and the 100-record error second; success is the rendered document |
| Serializer.XmlDataEmpty | EZohoCRM.php:631-645 | an empty batch gives an empty root element |
| Serializer.AppendFields | EZohoCRM.php:636-639 | the inner loop appends exactly the rendering of the record's fields |
| Serializer.AppendRow | EZohoCRM.php:635-643 | one pass of the outer loop appends exactly the rendering of one row |
| Serializer.AppendRows | EZohoCRM.php:632-644 | the outer loop appends exactly the rendering of one row per record, numbered from 1 |
| Serializer.TransformRecordsToXmlData | EZohoCRM.php:616-648 | the loop the source runs produces the same outcome and text as the reference function |
| Params.SetLookup | EZohoCRM.php:142 | after `$p[$k] = $v`, `k` holds `v` and every other key keeps its value |
| Params.SetShape | EZohoCRM.php:142 | the assignment adds `k` to the keys, keeps every existing key in place, and grows the array by at most one pair |
| Params.MergeLookup | EZohoCRM.php:144-145 | after `array_merge(a, b)`, a key holds its last value in `b`, or its value in `a` when `b` lacks it |
| Params.MergeShape | EZohoCRM.php:144-145 | the merge has exactly the keys of both arrays, keeps `a`'s keys in place, and creates no duplicate key |
| Json.AsText | EZohoCRM.php:161-162 | a decoded value converts to a string unless it is an object |
| Api.Prepare | EZohoCRM.php:140-148 | the query has SCOPE first, the token exactly when it is not empty, and the operation's keys; an operation's value wins over a default; no key occurs twice |
| Api.Interpret | EZohoCRM.php:157-165 | a delivered body is returned unchanged exactly when it has no set `response.error`; a set one raises `Error <code>: <message>` with the string conversions of its code and message, and raises the conversion error exactly when code or message is an object |
| Api.EnvelopeRaises | EZohoCRM.php:159-162 | the service's error envelope raises exactly `Error <code>: <message>` |
| Api.NoEnvelopePasses | EZohoCRM.php:157-165 | a body without an error member, with a null one, or not JSON at all is returned as it came |
| Api.Perform | EZohoCRM.php:439-442 | a failure before the call is returned as is; otherwise the outcome is the error check's; on success the reply is the print marker, the decoded body or the raw body |
| Builders.GetBoolean | EZohoCRM.php:290 | the word is "true" exactly for true and "false" exactly for false |
| Builders.BoolCast | EZohoCRM.php:593 | the cast is empty exactly for false and "1" for true |
| Builders.GetNewFormat | EZohoCRM.php:385 | the format is 1 or 2, and 1 exactly when nulls are excluded |
| Builders.SelectColumns | EZohoCRM.php:547-552 | the value is "All" exactly for the empty list; otherwise it ends with `)` |
| Builders.SelectColumnsRoundTrip | EZohoCRM.php:547-552 | the value reads back as the module and the exact column list when no column contains a comma |
| Client.DeleteRecords | EZohoCRM.php:241-245 | addressed to the active module's deleteRecords, with the id as its only parameter |
| Client.GenerateAuthToken | EZohoCRM.php:265-273 | addressed outside the base URL, with the parameter array SCOPE = `ZohoCRM/crmapi`, EMAIL_ID = the email, PASSWORD = the password, in that order |
| Client.AuthTokenScopeOverrides | EZohoCRM.php:267-273 | the token request's SCOPE is `ZohoCRM/crmapi`, not the default, and its query has no other keys than its own and the session's token |
| Client.GetCVRecords | EZohoCRM.php:303-316 | addressed to getCVRecords, with the parameter array cvName, fromIndex, toIndex, lastModifiedTime (null when missing), newFormat and version, each holding its argument |
| Client.GetFields | EZohoCRM.php:347-351 | addressed to getFields, with no parameters of its own |
| Client.GetRecordById | EZohoCRM.php:394-403 | addressed to getRecordById, with the parameter array id, newFormat and version, each holding its argument |
| Client.GetRecords | EZohoCRM.php:420-439 | addressed to getMyRecords exactly when the flag is set, with the parameter array of its eight keys in order, the column selection first and a missing sort column or time as null |
| Client.GetRelatedRecords | EZohoCRM.php:454-471 | refused with `Module X not supported for this function` exactly for Emails, Competitors and Integrations; otherwise addressed to getRelatedRecords, with parentModule, id, newFormat and the two indexes cast to strings |
| Client.GetSearchRecords | EZohoCRM.php:489-502 | addressed to getSearchRecords, with the parameter array of its six keys in order, the column selection first and every other argument in its place |
| Client.GetSearchRecordsByPDC | EZohoCRM.php:519-532 | addressed to getSearchRecordsByPDC, with the parameter array of its five keys in order, the column selection first and every other argument in its place |
| Client.GetUsers | EZohoCRM.php:561-568 | addressed to the Users module whatever module is active, with type and newFormat holding their arguments |
| Client.InsertRecords | EZohoCRM.php:585-599 | fails exactly when the serializer does, with its error; otherwise a POST to insertRecords with the POST-escaped document, the flags cast to strings, duplicateCheck, newFormat and version |
| Client.InsertRefusedBeforeSending | EZohoCRM.php:621-629 | a refused batch fails the whole call with the serializer's error, whatever the transport would answer |
| Client.UpdateRecords | EZohoCRM.php:657-670 | fails exactly when the serializer does; otherwise a POST to updateRecords with the id, the POST-escaped document, wfTrigger cast to a string, newFormat and version |
| Client.UpdateRelatedRecords | EZohoCRM.php:685-694 | fails exactly when the serializer does; otherwise a GET to updateRelatedRecords with relatedModule, id and the GET-escaped document |
| Client.RecordsRouting | EZohoCRM.php:425-426 | the operation is getMyRecords exactly when the flag is set, getRecords otherwise |
| Client.GetMyRecordsRoutingAsWritten | EZohoCRM.php:372-374 | with the arguments shifted, the caller's print flag picks the operation and the version decides printing |
| Client.GetMyRecordsMisrouted | EZohoCRM.php:367-374 | called with its defaults, getMyRecords goes to getRecords and prints |
| Client.GetMyRecords | EZohoCRM.php:367-374 | the intended call: getRecords' parameters unchanged, addressed to getMyRecords |
| ConvertLead.Elements | EZohoCRM.php:203-209 | one element per entry, in order, with the entry's value as its text, unescaped |
| ConvertLead.ConversionDoc | EZohoCRM.php:181-212 | the root is Potentials; the first row holds exactly the four `option` elements createPotential, assignTo, notifyLeadOwner and notifyNewEntityOwner, in that order; there is a second row exactly when a potential is created, holding exactly the six `FL` elements Potential Name, Closing Date, Potential Stage, Contact Role, Amount and Probability, in that order; the rows are numbered 1 and 2 |
| ConvertLead.ConversionDocReadBack | EZohoCRM.php:183-199 | the options read back as the flags written "true" or "false" and the assignee; all six of the potential's fields read back as given |
| ConvertLead.AppendElements | EZohoCRM.php:203-204 | the `foreach` appends exactly the rendering of the entries |
| ConvertLead.ConversionXmlData | EZohoCRM.php:201-212 | the text built piece by piece equals the rendered conversion document |
| ConvertLead.ConvertLeadEndpoint | EZohoCRM.php:214-221 | addressed to the module active before the call, with leadId, the document, newFormat and version holding their values |
| ConvertLead.ConvertLeadAsWritten | EZohoCRM.php:175-231 | the reply is the call made while Potentials is active, addressed to the module active before; the token is kept; the module ends as it began exactly when the call succeeded and printed (or it was Potentials already), and otherwise ends as Potentials |
| ConvertLead.ConvertLead | EZohoCRM.php:175-231 | the intended call: the same reply, and the client's state unchanged on every path |
| ConvertLead.ConvertLeadStrandsModule | EZohoCRM.php:225-229 | a successful, unprinted conversion from Leads leaves the next call addressed to Potentials; the intended one keeps it on Leads |

## Left out

- The transport (EZohoCRM.php:127-155: the curl adapter, redirects, timeouts, TLS options) is the parameter `send` of `Api.Perform`. Its failures are `TransportFailed` replies.
- The `$postbody` and `$body_enctype` arguments of `zohoCrmApiCall` are not modelled. No operation passes them.
- `print_response` (EZohoCRM.php:701-706) writes to the output. The model returns the marker `Printed` in its place.
- The constructor (EZohoCRM.php:109-121) reads a configuration array. Sessions are given directly, and the active module is one of the 17 module constants. Arbitrary module strings are not modelled.
- `json_decode`'s grammar is not modelled. A body carries its decoded form, or None when it is not JSON. Numbers are integers; floats are left out.
- Entities.EncodeChangesIff: `htmlentities` is modelled on `& < > "` only. Its table of accented and other characters, the single quote (encoded only under PHP 8.1's default flags) and the charset argument are not modelled.
- Escaper.Escape: the source compares with PHP's loose `!=`. The model uses string inequality. These agree here: a numeric string holds none of `& < > "`, so encoding leaves it unchanged.
- Escaper.ReadText reads only what the escaper can produce: character data, the four entities `&amp; &lt; &gt; &quot;`, and CDATA sections. Nested elements, comments, character references and `&apos;` are rejected, not read.
- Record keys are strings. PHP's integer array keys are not modelled.
- ConvertLead.ConvertLeadAsWritten: a `DateTime` closing date is formatted with `m/d/Y` at EZohoCRM.php:190. The model takes the closing date as a string already. Optional arguments left as null are the empty string, which is what their string cast gives.
- Client.GetMyRecordsRoutingAsWritten: only the routing is modelled (which operation, printed or returned), not the shifted parameter values. With the shift, the module name reaches `getSelectColumns` as the column list. Under PHP 5 and 7, `implode` warns and gives null there, so selectColumns is the module name followed by `()` and the request is still sent. Under PHP 8 it throws at EZohoCRM.php:550 and nothing is sent.
- Serializer.FieldTextsReadBack: for POST, the read-back is promised only for values without `]]>`. The source's POST escaping does not preserve such values (see Findings), and the serializer keeps the source's escaping (`Serializer.RecordsDoc` states each field text as `Escaper.Escape` of the value).
- The operations are endpoint builders. Each is combined with `Api.Perform` and a delivery mode (decode, or raw for generateAuthToken; print unless the operation has no print flag). They are not wrapped once more per operation.
- Raised errors are `Fail` outcomes, and only their message is modelled (`Outcomes.Message`), not their class. The batch rules, the module guard and the error envelope throw `Exception`. `NotStringable` stands for a different failure: concatenating an object into the message at EZohoCRM.php:160-161 is a recoverable fatal error up to PHP 7.3 and a thrown `Error` from PHP 7.4 on, never an `Exception`.

## Findings

| source | as written | input that shows it | evidently intended | confidence | as-written member | corrected member |
|---|---|---|---|---|---|---|
| EZohoCRM.php:225-229 | the active module is set back only after the print branch. The `else return` leaves the method before the restore, and a raised error skips it too. | `convertLead` while on Leads, with `$print = false` and a successful response | the module is set back on every exit path | not executed; high | ConvertLead.ConvertLeadAsWritten, ConvertLead.ConvertLeadStrandsModule | ConvertLead.ConvertLead |
| EZohoCRM.php:372-374 | `getMyRecords` passes `$this->module` as an extra first argument to `getRecords`, so every argument lands one position late. `$print` becomes `$myRecords` and `$version` becomes `$print`. | `getMyRecords()` with its defaults: the request goes to `getRecords` and the response is printed | the caller's arguments in place, with `$myRecords = true` | not executed; high | Client.GetMyRecordsRoutingAsWritten, Client.GetMyRecordsMisrouted | Client.GetMyRecords |
| EZohoCRM.php:335-336 | a POST value with a special character is wrapped in CDATA as it is. A value that itself holds `]]>` ends the section early: by section 2.7 of XML 1.0, a CDATA section ends at its first `]]>`. | `a]]>b` sent with POST: the text `<![CDATA[a]]>b]]>` is not well-formed | the value reaches the service unchanged, for instance by entity-encoding a value that holds `]]>` | not executed; medium | Escaper.Escape, Escaper.PostEscapeBreaks | Escaper.EscapeSafe, Escaper.SafePostRoundTrip |

=== FILE: api.dfy ===
/** The single call every operation goes through (`zohoCrmApiCall`): the
    default parameters merged under the operation's, the transport, and the
    check for an error envelope in the decoded body. */
module Api {
  import opened Outcomes
  import opened Strings
  import opened Escaper
  import opened CrmModules
  import opened Params
  import opened Json

  const Scope := "crmapi"
  const AuthTokenScope := "ZohoCRM/crmapi"
  const Version := 2

  /** The client's state: the auth token and the active module. */
  datatype Session = Session(authToken: Option<string>, crmModule: Module)

  /** A client constructed without configuration: no token, module Leads. */
  const InitialSession := Session(None, Leads)

  /** PHP's `!empty($this->authToken)`: null, "" and "0" count as empty. */
  predicate HasToken(s: Session)
  {
    s.authToken.Some? && s.authToken.value != "" && s.authToken.value != "0"
  }

  /** What an operation hands to the call: the address, the method, and its
      own parameters. */
  datatype Endpoint = Endpoint(url: string, verb: HttpMethod, params: Params)

  /** What the transport is asked to send. All parameters travel in the
      query string, whatever the method. */
  datatype Request = Request(url: string, verb: HttpMethod, query: Params)

  /** A body as received: its raw text and what `json_decode` makes of it
      (None when the text is not JSON). */
  datatype Body = Body(raw: string, parsed: Option<Json>)

  /** What the transport gives back. */
  datatype Response = Delivered(body: Body) | TransportFailed(reason: string)

  /** The transport: sends a request, returns what came back. */
  type Transport = Request -> Response

  /** The parameters every request carries unless the operation overrides
      them: SCOPE, and the auth token when there is one. */
  function Defaults(s: Session): Params
  {
    [("SCOPE", Str(Scope))] + (if HasToken(s) then [("authtoken", Str(s.authToken.value))] else [])
  }

  /** The request `zohoCrmApiCall` builds. An empty parameter array leaves the
      defaults alone, which is what merging it would do too. */
  function Prepare(s: Session, e: Endpoint): (r: Request)
    ensures r.url == e.url && r.verb == e.verb
    ensures Keys(r.query) == {"SCOPE"} + (if HasToken(s) then {"authtoken"} else {}) + Keys(e.params)
    ensures Lookup(r.query, "SCOPE") ==
      if "SCOPE" in Keys(e.params) then LastLookup(e.params, "SCOPE") else Some(Str(Scope))
    ensures "authtoken" !in Keys(e.params) ==>
      Lookup(r.query, "authtoken") == if HasToken(s) then Some(Str(s.authToken.value)) else None
    ensures forall k :: k in Keys(e.params) ==> Lookup(r.query, k) == LastLookup(e.params, k)
    ensures Distinct(r.query)
    ensures r.query[0].0 == "SCOPE"
  {
    var d := Defaults(s);
    var q := Merge(d, e.params);
    MergeShape(d, e.params);
    MergeLookup(d, e.params, "SCOPE");
    MergeLookup(d, e.params, "authtoken");
    forall k | k in Keys(e.params)
      ensures Lookup(q, k) == LastLookup(e.params, k)
    {
      MergeLookup(d, e.params, k);
    }
    assert Keys(d) == {"SCOPE"} + (if HasToken(s) then {"authtoken"} else {}) by {
      assert d[0].0 == "SCOPE";
      assert HasToken(s) ==> d[1].0 == "authtoken";
    }
    Request(e.url, e.verb, q)
  }

  /** The error check on a delivered body: a set `response.error` raises
      `Error <code>: <message>`; anything else returns the body untouched. */
  function Interpret(resp: Response): (r: Outcome<Body>)
    ensures r.Ok? <==> resp.Delivered? && !IsSet(ErrorNode(resp.body.parsed))
    ensures r.Ok? ==> r.value == resp.body
    ensures resp.TransportFailed? ==> r == Fail(Transport(resp.reason))
    ensures resp.Delivered? && r.Fail? ==> r.error.Service? || r.error == NotStringable
    ensures resp.Delivered? && r.Fail? ==>
      var err := ErrorNode(resp.body.parsed);
      (r.error == NotStringable <==> Member(err, "code").JObj? || Member(err, "message").JObj?)
    ensures resp.Delivered? && r.Fail? && r.error.Service? ==>
      var err := ErrorNode(resp.body.parsed);
      AsText(Member(err, "code")) == Some(r.error.code) && AsText(Member(err, "message")) == Some(r.error.message)
  {
    match resp
    case TransportFailed(reason) => Fail(Transport(reason))
    case Delivered(body) =>
      var err := ErrorNode(body.parsed);
      if !IsSet(err) then Ok(body)
      else
        match (AsText(Member(err, "code")), AsText(Member(err, "message")))
        case (Some(code), Some(message)) => Fail(Service(code, message))
        case _ => Fail(NotStringable)
  }

  /** The service's error envelope raises exactly `Error <code>: <message>`. */
  lemma EnvelopeRaises(raw: string, code: int, message: string)
    ensures Interpret(Delivered(Body(raw, Some(ErrorEnvelope(code, message))))) ==
      Fail(Service(IntToString(code), message))
    ensures Message(Interpret(Delivered(Body(raw, Some(ErrorEnvelope(code, message))))).error) ==
      "Error " + IntToString(code) + ": " + message
  {
    var env := ErrorEnvelope(code, message);
    var inner := JObj([("code", JNum(code)), ("message", JStr(message))]);
    assert Member(env, "response") == JObj([("error", inner)]);
    assert ErrorNode(Some(env)) == inner;
    assert Member(inner, "message") == JStr(message);
    assert Member(inner, "code") == JNum(code) by {
      var ms := inner.members;
      assert ms[1].0 == "message" && "message" != "code";
      assert ms[..1] == [("code", JNum(code))];
      assert LastMember(ms[..1], "code") == JNum(code);
      assert LastMember(ms, "code") == LastMember(ms[..1], "code");
    }
  }

  /** A body without an error member, an explicit `"error": null`, or a body
      that is not JSON at all, is returned as it came. */
  lemma NoEnvelopePasses(raw: string, parsed: Option<Json>)
    requires parsed.None? || !IsSet(Member(Member(parsed.value, "response"), "error"))
    ensures Interpret(Delivered(Body(raw, parsed))) == Ok(Body(raw, parsed))
  {
  }

  /** What an operation gives its caller once the call has succeeded. */
  datatype Reply =
    /** the `print` path: the body was printed and nothing is returned */
    | Printed
    /** `json_decode` of the body */
    | Decoded(doc: Option<Json>)
    /** the body itself (generateAuthToken) */
    | RawText(text: string)

  /** How an operation hands back the body. */
  datatype Delivery = DecodeUnlessPrinted(printed: bool) | RawUnlessPrinted(printed: bool)

  /** The common tail of every operation: build the endpoint (which may fail
      before anything is sent), make the call, then print or return. */
  function Perform(s: Session, e: Outcome<Endpoint>, d: Delivery, send: Transport): (r: Outcome<Reply>)
    ensures e.Fail? ==> r == Fail(e.error)
    ensures e.Ok? ==> (r.Ok? <==> Interpret(send(Prepare(s, e.value))).Ok?)
    ensures e.Ok? && r.Fail? ==> r.error == Interpret(send(Prepare(s, e.value))).error
    ensures r.Ok? && d.printed ==> r.value == Printed
    ensures r.Ok? && !d.printed && d.DecodeUnlessPrinted? ==>
      r.value == Decoded(send(Prepare(s, e.value)).body.parsed)
    ensures r.Ok? && !d.printed && d.RawUnlessPrinted? ==>
      r.value == RawText(send(Prepare(s, e.value)).body.raw)
  {
    match e
    case Fail(err) => Fail(err)
    case Ok(endpoint) =>
      match Interpret(send(Prepare(s, endpoint)))
      case Fail(err) => Fail(err)
      case Ok(body) =>
        if d.printed then Ok(Printed)
        else if d.DecodeUnlessPrinted? then Ok(Decoded(body.parsed))
        else Ok(RawText(body.raw))
  }
}

=== FILE: builders.dfy ===
/** The small parameter builders shared by the operations: `getBoolean`,
    `getNewFormat`, `getSelectColumns`, and PHP's string cast of a boolean. */
module Builders {
  import opened Outcomes
  import opened Strings
  import opened CrmModules

  /** `getBoolean`: the word the service takes for a flag. */
  function GetBoolean(b: bool): (r: string)
    ensures r == "true" <==> b
    ensures r == "false" <==> !b
  {
    if b then "true" else "false"
  }

  /** `(string)$b`: PHP writes true as "1" and false as the empty string. */
  function BoolCast(b: bool): (r: string)
    ensures r != "" <==> b
    ensures b ==> r == "1"
  {
    if b then "1" else ""
  }

  /** `getNewFormat`: 1 asks the service to leave out null fields, 2 to keep
      them. */
  function GetNewFormat(excludeNull: bool): (r: int)
    ensures r == 1 || r == 2
    ensures r == 1 <==> excludeNull
  {
    if excludeNull then 1 else 2
  }

  const AllColumns := "All"

  /** `getSelectColumns`: "All" for the empty list, otherwise
      `Module(col1,col2,…)`. */
  function SelectColumns(m: Module, columns: seq<string>): (r: string)
    ensures r == AllColumns <==> columns == []
    ensures columns != [] ==> |r| >= 1 && r[|r| - 1] == ')'
  {
    if columns == [] then AllColumns else Name(m) + "(" + Join(',', columns) + ")"
  }

  /** What a selectColumns value asks for. */
  datatype Selection = Everything | Subset(crmModule: Module, columns: seq<string>)

  /** How the service reads a selectColumns value. */
  function ParseSelection(s: string): Option<Selection>
  {
    if s == AllColumns then Some(Everything)
    else if |s| >= 1 && s[|s| - 1] == ')' then
      match FindFirst('(', s)
      case None => None
      case Some(k) =>
        match FromName(s[..k])
        case None => None
        case Some(m) => Some(Subset(m, Split(',', s[k + 1..|s| - 1])))
    else None
  }

  /** The selectColumns value reads back as the module and the exact column
      list, when no column name contains a comma. */
  lemma SelectColumnsRoundTrip(m: Module, columns: seq<string>)
    requires forall i :: 0 <= i < |columns| ==> Lacks(',', columns[i])
    ensures ParseSelection(SelectColumns(m, columns)) ==
      Some(if columns == [] then Everything else Subset(m, columns))
  {
    if columns != [] {
      var s := SelectColumns(m, columns);
      var joined := Join(',', columns);
      NameIsWord(m);
      assert s == Name(m) + ['('] + (joined + ")");
      FindFirstAfter('(', Name(m), joined + ")");
      assert s[..|Name(m)|] == Name(m);
      NameRoundTrip(m);
      assert s[|Name(m)| + 1..|s| - 1] == joined;
      SplitJoin(',', columns);
    }
  }
}

=== FILE: client.dfy ===
/** The public operations of the client. Each builds its endpoint (address,
    method, parameters) from the session and its arguments; `Perform` then
    makes the call. */
module Client {
  import opened Outcomes
  import opened Escaper
  import opened CrmModules
  import opened Serializer
  import opened Builders
  import opened Params
  import opened Api

  /** The endpoint is addressed to operation `op` of module `m`. */
  predicate Addressed(e: Endpoint, m: Module, op: string)
  {
    ParsePath(e.url) == Some(Target(m, op))
  }

  /** An endpoint under the base URL, for module `m`. */
  function ModuleEndpoint(m: Module, op: string, verb: HttpMethod, params: Params): (e: Endpoint)
    ensures Addressed(e, m, op) && e.verb == verb && e.params == params
  {
    ParsePathRoundTrip(m, op);
    Endpoint(Path(m, op), verb, params)
  }

  /** A PHP value that may be null. */
  function OrNull(o: Option<string>): (v: Value)
    ensures v == Null <==> o.None?
  {
    match o
    case None => Null
    case Some(s) => Str(s)
  }

  /** `deleteRecords`. */
  function DeleteRecords(s: Session, id: string): (e: Endpoint)
    ensures Addressed(e, s.crmModule, "deleteRecords") && e.verb == GET
    ensures e.params == [("id", Str(id))]
  {
    ModuleEndpoint(s.crmModule, "deleteRecords", GET, Pairs(["id"], [Str(id)]))
  }

  /** `generateAuthToken`: its own address outside the base URL, and its own
      SCOPE. */
  function GenerateAuthToken(email: string, password: string): (e: Endpoint)
    ensures e.url == AuthTokenUrl && ParsePath(e.url).None? && e.verb == GET
    ensures Literal(e.params, ["SCOPE", "EMAIL_ID", "PASSWORD"], [Str(AuthTokenScope), Str(email), Str(password)])
  {
    AuthTokenUrlHasNoModule();
    Endpoint(AuthTokenUrl, GET,
      Pairs(
        ["SCOPE", "EMAIL_ID", "PASSWORD"],
        [Str(AuthTokenScope), Str(email), Str(password)]))
  }

  /** The token request carries the token scope in place of the default one,
      and nothing else beyond its own parameters and the session's token. */
  lemma AuthTokenScopeOverrides(s: Session, email: string, password: string)
    ensures var q := Prepare(s, GenerateAuthToken(email, password)).query;
      && Lookup(q, "SCOPE") == Some(Str(AuthTokenScope))
      && Keys(q) == {"SCOPE", "EMAIL_ID", "PASSWORD"} + (if HasToken(s) then {"authtoken"} else {})
  {
    var e := GenerateAuthToken(email, password);
    assert e.params[0].0 == "SCOPE" && e.params[1].0 == "EMAIL_ID" && e.params[2].0 == "PASSWORD";
    assert Keys(e.params) == {"SCOPE", "EMAIL_ID", "PASSWORD"};
    assert Distinct(e.params);
    LastLookupDistinct(e.params, "SCOPE");
  }

  /** `getCVRecords`. */
  function GetCVRecords(s: Session, cvName: string, fromIndex: int, toIndex: int,
                        lastModifiedTime: Option<string>, excludeNull: bool, version: int): (e: Endpoint)
    ensures Addressed(e, s.crmModule, "getCVRecords") && e.verb == GET
    ensures Literal(e.params,
      ["cvName", "fromIndex", "toIndex", "lastModifiedTime", "newFormat", "version"],
      [Str(cvName), Int(fromIndex), Int(toIndex), OrNull(lastModifiedTime), Int(GetNewFormat(excludeNull)), Int(version)])
  {
    ModuleEndpoint(s.crmModule, "getCVRecords", GET,
      Pairs(
        ["cvName", "fromIndex", "toIndex", "lastModifiedTime", "newFormat", "version"],
        [Str(cvName), Int(fromIndex), Int(toIndex), OrNull(lastModifiedTime), Int(GetNewFormat(excludeNull)), Int(version)]))
  }

  /** `getFields`: no parameters of its own. */
  function GetFields(s: Session): (e: Endpoint)
    ensures Addressed(e, s.crmModule, "getFields") && e.verb == GET && e.params == []
  {
    ModuleEndpoint(s.crmModule, "getFields", GET, [])
  }

  /** `getRecordById`. */
  function GetRecordById(s: Session, id: string, excludeNull: bool, version: int): (e: Endpoint)
    ensures Addressed(e, s.crmModule, "getRecordById") && e.verb == GET
    ensures Literal(e.params, ["id", "newFormat", "version"], [Str(id), Int(GetNewFormat(excludeNull)), Int(version)])
  {
    ModuleEndpoint(s.crmModule, "getRecordById", GET,
      Pairs(
        ["id", "newFormat", "version"],
        [Str(id), Int(GetNewFormat(excludeNull)), Int(version)]))
  }

  /** `getRecords`, which also serves `getMyRecords`: the flag only chooses
      the operation in the address. */
  function GetRecords(s: Session, columns: seq<string>, fromIndex: int, toIndex: int,
                      sortColumn: Option<string>, sortOrder: string,
                      lastModifiedTime: Option<string>, excludeNull: bool, version: int,
                      myRecords: bool): (e: Endpoint)
    ensures Addressed(e, s.crmModule, if myRecords then "getMyRecords" else "getRecords")
    ensures e.verb == GET
    ensures Literal(e.params,
      ["selectColumns", "fromIndex", "toIndex", "sortColumnString", "sortOrderString",
       "lastModifiedTime", "newFormat", "version"],
      [Str(SelectColumns(s.crmModule, columns)), Int(fromIndex), Int(toIndex), OrNull(sortColumn),
       Str(sortOrder), OrNull(lastModifiedTime), Int(GetNewFormat(excludeNull)), Int(version)])
  {
    var values := [Str(SelectColumns(s.crmModule, columns)), Int(fromIndex), Int(toIndex), OrNull(sortColumn),
                   Str(sortOrder), OrNull(lastModifiedTime), Int(GetNewFormat(excludeNull)), Int(version)];
    assert values[3] == OrNull(sortColumn);
    ModuleEndpoint(s.crmModule, if myRecords then "getMyRecords" else "getRecords", GET,
      Pairs(
        ["selectColumns", "fromIndex", "toIndex", "sortColumnString", "sortOrderString", "lastModifiedTime", "newFormat", "version"],
        values))
  }

  /** `getRelatedRecords`: refused for Emails, Competitors and Integrations
      before any request is made. */
  function GetRelatedRecords(s: Session, parentModule: string, id: string, excludeNull: bool,
                             fromIndex: int, toIndex: int): (r: Outcome<Endpoint>)
    ensures r.Fail? <==> NoRelatedRecords(s.crmModule)
    ensures r.Fail? ==> r.error == ModuleUnsupported(Name(s.crmModule))
    ensures r.Ok? ==> Addressed(r.value, s.crmModule, "getRelatedRecords") && r.value.verb == GET
    ensures r.Ok? ==> Literal(r.value.params,
      ["parentModule", "id", "newFormat", "fromIndex", "toIndex"],
      [Str(parentModule), Str(id), Int(GetNewFormat(excludeNull)),
       Str(Strings.IntToString(fromIndex)), Str(Strings.IntToString(toIndex))])
  {
    if NoRelatedRecords(s.crmModule) then Fail(ModuleUnsupported(Name(s.crmModule)))
    else Ok(ModuleEndpoint(s.crmModule, "getRelatedRecords", GET,
      Pairs(
        ["parentModule", "id", "newFormat", "fromIndex", "toIndex"],
        [Str(parentModule), Str(id), Int(GetNewFormat(excludeNull)), Str(Strings.IntToString(fromIndex)), Str(Strings.IntToString(toIndex))])))
  }

  /** `getSearchRecords`. */
  function GetSearchRecords(s: Session, columns: seq<string>, searchCondition: string,
                            excludeNull: bool, fromIndex: int, toIndex: int, version: int): (e: Endpoint)
    ensures Addressed(e, s.crmModule, "getSearchRecords") && e.verb == GET
    ensures Literal(e.params,
      ["selectColumns", "searchCondition", "newFormat", "fromIndex", "toIndex", "version"],
      [Str(SelectColumns(s.crmModule, columns)), Str(searchCondition), Int(GetNewFormat(excludeNull)),
       Int(fromIndex), Int(toIndex), Int(version)])
  {
    ModuleEndpoint(s.crmModule, "getSearchRecords", GET,
      Pairs(
        ["selectColumns", "searchCondition", "newFormat", "fromIndex", "toIndex", "version"],
        [Str(SelectColumns(s.crmModule, columns)), Str(searchCondition), Int(GetNewFormat(excludeNull)), Int(fromIndex), Int(toIndex), Int(version)]))
  }

  /** `getSearchRecordsByPDC`. */
  function GetSearchRecordsByPDC(s: Session, columns: seq<string>, searchColumn: string,
                                 searchValue: string, excludeNull: bool, version: int): (e: Endpoint)
    ensures Addressed(e, s.crmModule, "getSearchRecordsByPDC") && e.verb == GET
    ensures Literal(e.params,
      ["selectColumns", "searchColumn", "searchValue", "newFormat", "version"],
      [Str(SelectColumns(s.crmModule, columns)), Str(searchColumn), Str(searchValue),
       Int(GetNewFormat(excludeNull)), Int(version)])
  {
    ModuleEndpoint(s.crmModule, "getSearchRecordsByPDC", GET,
      Pairs(
        ["selectColumns", "searchColumn", "searchValue", "newFormat", "version"],
        [Str(SelectColumns(s.crmModule, columns)), Str(searchColumn), Str(searchValue), Int(GetNewFormat(excludeNull)), Int(version)]))
  }

  /** `getUsers`: always addressed to the Users module, whatever module is
      active. */
  function GetUsers(s: Session, userType: string, excludeNull: bool): (e: Endpoint)
    ensures Addressed(e, Users, "getUsers") && e.verb == GET
    ensures Literal(e.params, ["type", "newFormat"], [Str(userType), Int(GetNewFormat(excludeNull))])
  {
    ModuleEndpoint(Users, "getUsers", GET,
      Pairs(
        ["type", "newFormat"],
        [Str(userType), Int(GetNewFormat(excludeNull))]))
  }

  /** `insertRecords`: the records as POST-escaped xmlData. The batch rules
      fail the operation before anything is sent. */
  function InsertRecords(s: Session, records: seq<Record>, wfTrigger: bool, duplicateCheck: int,
                         isApproval: bool, excludeNull: bool, version: int): (r: Outcome<Endpoint>)
    ensures r.Fail? <==> XmlData(s.crmModule, records, POST).Fail?
    ensures r.Fail? ==> r.error == XmlData(s.crmModule, records, POST).error
    ensures r.Ok? ==> Addressed(r.value, s.crmModule, "insertRecords") && r.value.verb == POST
    ensures r.Ok? ==> Literal(r.value.params,
      ["xmlData", "wfTrigger", "duplicateCheck", "isApproval", "newFormat", "version"],
      [Str(XmlData(s.crmModule, records, POST).value), Str(BoolCast(wfTrigger)), Int(duplicateCheck),
       Str(BoolCast(isApproval)), Int(GetNewFormat(excludeNull)), Int(version)])
  {
    var xml :- XmlData(s.crmModule, records, POST);
    Ok(ModuleEndpoint(s.crmModule, "insertRecords", POST,
      Pairs(
        ["xmlData", "wfTrigger", "duplicateCheck", "isApproval", "newFormat", "version"],
        [Str(xml), Str(BoolCast(wfTrigger)), Int(duplicateCheck), Str(BoolCast(isApproval)), Int(GetNewFormat(excludeNull)), Int(version)])))
  }

  /** A batch the serializer refuses fails the whole operation with the
      serializer's error, whatever the transport would have answered: nothing
      is sent. */
  lemma InsertRefusedBeforeSending(s: Session, records: seq<Record>, wfTrigger: bool, duplicateCheck: int,
                                   isApproval: bool, excludeNull: bool, version: int,
                                   d: Delivery, send: Transport, other: Transport)
    requires |records| > MaxRecords || (|records| > 1 && SingleInsertOnly(s.crmModule))
    ensures var e := InsertRecords(s, records, wfTrigger, duplicateCheck, isApproval, excludeNull, version);
      && Perform(s, e, d, send) == Perform(s, e, d, other)
      && Perform(s, e, d, send) ==
         Fail(if |records| > 1 && SingleInsertOnly(s.crmModule) then MultipleInsertUnsupported(Name(s.crmModule))
              else TooManyRecords)
  {
  }

  /** `updateRecords`: like insertRecords, with the record id. */
  function UpdateRecords(s: Session, id: string, records: seq<Record>, wfTrigger: bool,
                         excludeNull: bool, version: int): (r: Outcome<Endpoint>)
    ensures r.Fail? <==> XmlData(s.crmModule, records, POST).Fail?
    ensures r.Fail? ==> r.error == XmlData(s.crmModule, records, POST).error
    ensures r.Ok? ==> Addressed(r.value, s.crmModule, "updateRecords") && r.value.verb == POST
    ensures r.Ok? ==> Literal(r.value.params,
      ["id", "xmlData", "wfTrigger", "newFormat", "version"],
      [Str(id), Str(XmlData(s.crmModule, records, POST).value), Str(BoolCast(wfTrigger)),
       Int(GetNewFormat(excludeNull)), Int(version)])
  {
    var xml :- XmlData(s.crmModule, records, POST);
    Ok(ModuleEndpoint(s.crmModule, "updateRecords", POST,
      Pairs(
        ["id", "xmlData", "wfTrigger", "newFormat", "version"],
        [Str(id), Str(xml), Str(BoolCast(wfTrigger)), Int(GetNewFormat(excludeNull)), Int(version)])))
  }

  /** `updateRelatedRecords`: the records as GET-escaped xmlData, sent with
      GET. */
  function UpdateRelatedRecords(s: Session, relatedModule: string, id: string,
                                records: seq<Record>): (r: Outcome<Endpoint>)
    ensures r.Fail? <==> XmlData(s.crmModule, records, GET).Fail?
    ensures r.Fail? ==> r.error == XmlData(s.crmModule, records, GET).error
    ensures r.Ok? ==> Addressed(r.value, s.crmModule, "updateRelatedRecords") && r.value.verb == GET
    ensures r.Ok? ==> Literal(r.value.params,
      ["relatedModule", "id", "xmlData"],
      [Str(relatedModule), Str(id), Str(XmlData(s.crmModule, records, GET).value)])
  {
    var xml :- XmlData(s.crmModule, records, GET);
    Ok(ModuleEndpoint(s.crmModule, "updateRelatedRecords", GET,
      Pairs(
        ["relatedModule", "id", "xmlData"],
        [Str(relatedModule), Str(id), Str(xml)])))
  }

  /** Where a getRecords call goes and whether its result is printed rather
      than returned. */
  datatype Routing = Routing(operation: string, printed: bool)

  /** The routing getRecords derives from its last two flags. */
  function RecordsRouting(myRecords: bool, printed: bool): (r: Routing)
    ensures r.operation == "getMyRecords" <==> myRecords
    ensures r.operation == "getRecords" <==> !myRecords
    ensures r.printed == printed
  {
    Routing(if myRecords then "getMyRecords" else "getRecords", printed)
  }

  /** `getMyRecords` as the source writes it: it passes the active module in
      front of its own arguments, so every argument lands one position late.
      Its `print` flag arrives as `myRecords`, its `version` as `print` (a
      non-zero integer is true), and its trailing `true` is dropped. */
  function GetMyRecordsRoutingAsWritten(printed: bool, version: int): (r: Routing)
    ensures r.operation == "getMyRecords" <==> printed
    ensures r.printed <==> version != 0
  {
    RecordsRouting(printed, version != 0)
  }

  /** With its default arguments the call fetches every record, not the
      caller's own, and prints the response instead of returning it. */
  lemma GetMyRecordsMisrouted()
    ensures GetMyRecordsRoutingAsWritten(false, Version) == Routing("getRecords", true)
    ensures GetMyRecordsRoutingAsWritten(false, Version) != RecordsRouting(true, false)
  {
  }

  /** `getMyRecords` as evidently intended: the getRecords request with the
      caller's arguments in place, addressed to getMyRecords. */
  function GetMyRecords(s: Session, columns: seq<string>, fromIndex: int, toIndex: int,
                        sortColumn: Option<string>, sortOrder: string,
                        lastModifiedTime: Option<string>, excludeNull: bool, version: int): (e: Endpoint)
    ensures Addressed(e, s.crmModule, "getMyRecords") && e.verb == GET
    ensures e.params == GetRecords(s, columns, fromIndex, toIndex, sortColumn, sortOrder,
                                   lastModifiedTime, excludeNull, version, false).params
  {
    GetRecords(s, columns, fromIndex, toIndex, sortColumn, sortOrder, lastModifiedTime, excludeNull, version, true)
  }
}

=== FILE: convert_lead.dfy ===
/** `convertLead`: turns a lead into a potential, an account and a contact.
    Its xmlData is built by hand rather than by the record serializer: a first
    row of `option` elements, and a second row of `FL` elements for the
    potential when one is to be created. While it runs, the active module is
    switched to Potentials. */
module ConvertLead {
  import opened Outcomes
  import opened CrmModules
  import opened Escaper
  import opened Markup
  import opened Builders
  import opened Strings
  import opened Params
  import opened Json
  import opened Api
  import opened Client

  /** The arguments of a conversion. Optional arguments the caller leaves out
      are PHP's null, whose string cast is "". */
  datatype Conversion = Conversion(
    leadId: string,
    createPotential: bool,
    assignTo: string,
    notifyLeadOwner: bool,
    notifyNewEntityOwner: bool,
    potentialName: string,
    closingDate: string,
    potentialStage: string,
    contactRole: string,
    amount: string,
    probability: string)

  /** The first row's entries: the conversion options. */
  function OptionEntries(c: Conversion): seq<(string, string)>
  {
    [("createPotential", GetBoolean(c.createPotential)),
     ("assignTo", c.assignTo),
     ("notifyLeadOwner", GetBoolean(c.notifyLeadOwner)),
     ("notifyNewEntityOwner", GetBoolean(c.notifyNewEntityOwner))]
  }

  /** The second row's entries: the potential to create. */
  function PotentialEntries(c: Conversion): seq<(string, string)>
  {
    [("Potential Name", c.potentialName),
     ("Closing Date", c.closingDate),
     ("Potential Stage", c.potentialStage),
     ("Contact Role", c.contactRole),
     ("Amount", c.amount),
     ("Probability", c.probability)]
  }

  /** One element per entry, in order, with the entry's value as its text:
      nothing is escaped. */
  function Elements(tag: string, entries: seq<(string, string)>): (fs: seq<Field>)
    ensures |fs| == |entries|
    ensures forall j :: 0 <= j < |entries| ==>
      fs[j].tag == tag && fs[j].key == entries[j].0 && fs[j].text == entries[j].1
  {
    seq(|entries|, j requires 0 <= j < |entries| => Field(tag, entries[j].0, entries[j].1))
  }

  /** The value of the first element keyed `key`, if any. */
  function TextOf(fs: seq<Field>, key: string): Option<string>
  {
    if fs == [] then None
    else if fs[0].key == key then Some(fs[0].text)
    else TextOf(fs[1..], key)
  }

  /** The conversion document. Its root is Potentials, the module that is
      active while it is built, whatever module was active before. */
  function ConversionDoc(c: Conversion): (d: Doc)
    ensures d.root == Name(Potentials)
    ensures |d.rows| == if c.createPotential then 2 else 1
    ensures forall i :: 0 <= i < |d.rows| ==> d.rows[i].no == i + 1
    ensures forall f :: f in d.rows[0].fields ==> f.tag == "option"
    ensures FieldKeys(d.rows[0].fields) ==
      ["createPotential", "assignTo", "notifyLeadOwner", "notifyNewEntityOwner"]
    ensures c.createPotential ==> forall f :: f in d.rows[1].fields ==> f.tag == "FL"
    ensures c.createPotential ==>
      FieldKeys(d.rows[1].fields) ==
        ["Potential Name", "Closing Date", "Potential Stage", "Contact Role", "Amount", "Probability"]
  {
    var first := Row(1, Elements("option", OptionEntries(c)));
    if c.createPotential then Doc(Name(Potentials), [first, Row(2, Elements("FL", PotentialEntries(c)))])
    else Doc(Name(Potentials), [first])
  }

  /** The service reads every argument back from the document: the flags as
      "true"/"false" options, the potential's fields as given, and the
      potential's row only when one is to be created. */
  lemma ConversionDocReadBack(c: Conversion)
    ensures var opts := ConversionDoc(c).rows[0].fields;
      && TextOf(opts, "createPotential") == Some(GetBoolean(c.createPotential))
      && TextOf(opts, "assignTo") == Some(c.assignTo)
      && TextOf(opts, "notifyLeadOwner") == Some(GetBoolean(c.notifyLeadOwner))
      && TextOf(opts, "notifyNewEntityOwner") == Some(GetBoolean(c.notifyNewEntityOwner))
      && (TextOf(opts, "createPotential") == Some("true") <==> c.createPotential)
      && (TextOf(opts, "notifyLeadOwner") == Some("true") <==> c.notifyLeadOwner)
      && (TextOf(opts, "notifyNewEntityOwner") == Some("true") <==> c.notifyNewEntityOwner)
    ensures c.createPotential ==>
      var fl := ConversionDoc(c).rows[1].fields;
      && TextOf(fl, "Potential Name") == Some(c.potentialName)
      && TextOf(fl, "Closing Date") == Some(c.closingDate)
      && TextOf(fl, "Potential Stage") == Some(c.potentialStage)
      && TextOf(fl, "Contact Role") == Some(c.contactRole)
      && TextOf(fl, "Amount") == Some(c.amount)
      && TextOf(fl, "Probability") == Some(c.probability)
  {
    var opts := ConversionDoc(c).rows[0].fields;
    TextOfAt(opts, 0, "createPotential");
    TextOfAt(opts, 1, "assignTo");
    TextOfAt(opts, 2, "notifyLeadOwner");
    TextOfAt(opts, 3, "notifyNewEntityOwner");
    if c.createPotential {
      var fl := ConversionDoc(c).rows[1].fields;
      TextOfAt(fl, 0, "Potential Name");
      TextOfAt(fl, 1, "Closing Date");
      TextOfAt(fl, 2, "Potential Stage");
      TextOfAt(fl, 3, "Contact Role");
      TextOfAt(fl, 4, "Amount");
      TextOfAt(fl, 5, "Probability");
    }
  }

  /** The first element with a key is the one whose text is read. */
  lemma {:induction false} TextOfAt(fs: seq<Field>, j: nat, key: string)
    requires j < |fs| && fs[j].key == key
    requires forall i :: 0 <= i < j ==> fs[i].key != key
    ensures TextOf(fs, key) == Some(fs[j].text)
  {
    if j > 0 {
      TextOfAt(fs[1..], j - 1, key);
    }
  }

  /** One element per entry, appended in order: the `foreach` loops of the
      source. */
  method AppendElements(xml: string, tag: string, entries: seq<(string, string)>) returns (out: string)
    ensures out == xml + RenderFields(Elements(tag, entries))
  {
    ghost var fields := Elements(tag, entries);
    out := xml;
    var j := 0;
    while j < |entries|
      invariant 0 <= j <= |entries|
      invariant out == xml + RenderFields(fields[..j])
    {
      ConcatMapSnoc(RenderField, fields, j);
      out := out + RenderField(Field(tag, entries[j].0, entries[j].1));
      j := j + 1;
    }
    assert fields[..j] == fields;
  }

  /** One `row` element of entries, appended. */
  method AppendEntriesRow(xml: string, no: nat, tag: string, entries: seq<(string, string)>)
    returns (out: string)
    ensures out == xml + RenderRow(Row(no, Elements(tag, entries)))
  {
    out := xml + RowOpen(no);
    out := AppendElements(out, tag, entries);
    out := out + RowClose;
    AppendAssoc(xml, RowOpen(no), RenderFields(Elements(tag, entries)), RowClose);
  }

  lemma RenderRowsOne(a: Row)
    ensures RenderRows([a]) == RenderRow(a)
  {
    ConcatMapSnoc(RenderRow, [a], 0);
    assert [a][..1] == [a] && [a][..0] == [];
  }

  lemma RenderRowsTwo(a: Row, b: Row)
    ensures RenderRows([a, b]) == RenderRow(a) + RenderRow(b)
  {
    ConcatMapSnoc(RenderRow, [a, b], 1);
    assert [a, b][..2] == [a, b] && [a, b][..1] == [a];
    RenderRowsOne(a);
  }

  /** The xmlData as the source builds it, piece by piece: the same text as
      the rendered conversion document. */
  method ConversionXmlData(c: Conversion) returns (xml: string)
    ensures xml == Render(ConversionDoc(c))
  {
    var root := Name(Potentials);
    ghost var first := Row(1, Elements("option", OptionEntries(c)));
    xml := Open(root);
    xml := AppendEntriesRow(xml, 1, "option", OptionEntries(c));
    RenderRowsOne(first);
    if c.createPotential {
      ghost var second := Row(2, Elements("FL", PotentialEntries(c)));
      xml := AppendEntriesRow(xml, 2, "FL", PotentialEntries(c));
      RenderRowsTwo(first, second);
      AppendAssoc3(Open(root), RenderRow(first), RenderRow(second));
    }
    xml := xml + Close(root);
  }

  /** The request: addressed to the module that was active before the call,
      with the document, the lead and the format parameters. */
  function ConvertLeadEndpoint(before: Module, c: Conversion, excludeNull: bool, version: int): (e: Endpoint)
    ensures Addressed(e, before, "convertLead") && e.verb == GET
    ensures Literal(e.params,
      ["leadId", "xmlData", "newFormat", "version"],
      [Str(c.leadId), Str(Render(ConversionDoc(c))), Int(GetNewFormat(excludeNull)), Int(version)])
  {
    ModuleEndpoint(before, "convertLead", GET,
      Pairs(
        ["leadId", "xmlData", "newFormat", "version"],
        [Str(c.leadId), Str(Render(ConversionDoc(c))), Int(GetNewFormat(excludeNull)), Int(version)]))
  }

  /** What the operation returns, and the client's state afterwards. */
  datatype Converted = Converted(reply: Outcome<Reply>, after: Session)

  /** The operation as the source writes it. The active module becomes
      Potentials and is set back only after a successful call on the print
      path: a returned result, or a raised error, leaves it at Potentials. */
  function ConvertLeadAsWritten(s: Session, c: Conversion, excludeNull: bool, version: int,
                                printed: bool, send: Transport): (r: Converted)
    ensures r.after.authToken == s.authToken
    ensures r.after.crmModule == s.crmModule <==> (r.reply.Ok? && printed) || s.crmModule == Potentials
    ensures r.after.crmModule == Potentials || r.after.crmModule == s.crmModule
    ensures r.reply.Ok? <==>
      Interpret(send(Prepare(s, ConvertLeadEndpoint(s.crmModule, c, excludeNull, version)))).Ok?
    ensures r.reply == Perform(s.(crmModule := Potentials), Ok(ConvertLeadEndpoint(s.crmModule, c, excludeNull, version)),
                               DecodeUnlessPrinted(printed), send)
  {
    var during := s.(crmModule := Potentials);
    var e := ConvertLeadEndpoint(s.crmModule, c, excludeNull, version);
    var reply := Perform(during, Ok(e), DecodeUnlessPrinted(printed), send);
    if reply.Ok? && printed then Converted(reply, s) else Converted(reply, during)
  }

  /** The operation as evidently intended: the same request and reply, and the
      active module set back on every path. */
  function ConvertLead(s: Session, c: Conversion, excludeNull: bool, version: int,
                       printed: bool, send: Transport): (r: Converted)
    ensures r.after == s
    ensures r.reply == ConvertLeadAsWritten(s, c, excludeNull, version, printed, send).reply
  {
    var e := ConvertLeadEndpoint(s.crmModule, c, excludeNull, version);
    Converted(Perform(s.(crmModule := Potentials), Ok(e), DecodeUnlessPrinted(printed), send), s)
  }

  /** A transport whose every answer is an empty JSON object. */
  function Accepting(req: Request): Response
  {
    Delivered(Body("{}", Some(JObj([]))))
  }

  /** A successful conversion from Leads that returns its result leaves the
      client on Potentials, so the next call goes to the wrong module; the
      corrected operation keeps it on Leads. */
  lemma ConvertLeadStrandsModule(c: Conversion)
    ensures var s := InitialSession;
      && ConvertLeadAsWritten(s, c, false, Version, false, Accepting).after.crmModule == Potentials
      && Addressed(GetFields(ConvertLeadAsWritten(s, c, false, Version, false, Accepting).after), Potentials, "getFields")
      && Addressed(GetFields(ConvertLead(s, c, false, Version, false, Accepting).after), Leads, "getFields")
  {
    var s := InitialSession;
    var e := ConvertLeadEndpoint(s.crmModule, c, false, Version);
    NoEnvelopePasses("{}", Some(JObj([])));
    assert Interpret(Accepting(Prepare(s, e))).Ok?;
  }
}

=== FILE: crm_modules.dfy ===
/** The CRM modules (entity collections), the rules tied to them, and the
    endpoint addresses built from them. */
module CrmModules {
  import opened Outcomes
  import opened Strings

  datatype Module =
    | Accounts | Competitors | Contacts | Dashboards | Emails | Forecasts
    | Integrations | Invoices | Leads | Potentials | PriceBooks | Products
    | PurchaseOrders | Quotes | Reports | SalesOrders | Users

  /** The module's name, as it appears in paths and as a markup root tag. */
  function Name(m: Module): string
  {
    match m
    case Accounts => "Accounts"
    case Competitors => "Competitors"
    case Contacts => "Contacts"
    case Dashboards => "Dashboards"
    case Emails => "Emails"
    case Forecasts => "Forecasts"
    case Integrations => "Integrations"
    case Invoices => "Invoices"
    case Leads => "Leads"
    case Potentials => "Potentials"
    case PriceBooks => "PriceBooks"
    case Products => "Products"
    case PurchaseOrders => "PurchaseOrders"
    case Quotes => "Quotes"
    case Reports => "Reports"
    case SalesOrders => "SalesOrders"
    case Users => "Users"
  }

  /** The module with a given name, if any. */
  function FromName(s: string): (r: Option<Module>)
    ensures r.Some? ==> Name(r.value) == s
  {
    if s == "Accounts" then Some(Accounts)
    else if s == "Competitors" then Some(Competitors)
    else if s == "Contacts" then Some(Contacts)
    else if s == "Dashboards" then Some(Dashboards)
    else if s == "Emails" then Some(Emails)
    else if s == "Forecasts" then Some(Forecasts)
    else if s == "Integrations" then Some(Integrations)
    else if s == "Invoices" then Some(Invoices)
    else if s == "Leads" then Some(Leads)
    else if s == "Potentials" then Some(Potentials)
    else if s == "PriceBooks" then Some(PriceBooks)
    else if s == "Products" then Some(Products)
    else if s == "PurchaseOrders" then Some(PurchaseOrders)
    else if s == "Quotes" then Some(Quotes)
    else if s == "Reports" then Some(Reports)
    else if s == "SalesOrders" then Some(SalesOrders)
    else if s == "Users" then Some(Users)
    else None
  }

  /** Names identify modules: reading a module's name back gives the module. */
  lemma NameRoundTrip(m: Module)
    ensures FromName(Name(m)) == Some(m)
  {
  }

  /** Module names are plain words: no path separator, no parenthesis, no
      comma. */
  lemma NameIsWord(m: Module)
    ensures Lacks('/', Name(m)) && Lacks('(', Name(m)) && Lacks(',', Name(m))
  {
    match m
    case Accounts => assert Word("Accounts");
    case Competitors => assert Word("Competitors");
    case Contacts => assert Word("Contacts");
    case Dashboards => assert Word("Dashboards");
    case Emails => assert Word("Emails");
    case Forecasts => assert Word("Forecasts");
    case Integrations => assert Word("Integrations");
    case Invoices => assert Word("Invoices");
    case Leads => assert Word("Leads");
    case Potentials => assert Word("Potentials");
    case PriceBooks => assert Word("PriceBooks");
    case Products => assert Word("Products");
    case PurchaseOrders => assert Word("PurchaseOrders");
    case Quotes => assert Word("Quotes");
    case Reports => assert Word("Reports");
    case SalesOrders => assert Word("SalesOrders");
    case Users => assert Word("Users");
  }

  predicate Word(s: string)
  {
    Lacks('/', s) && Lacks('(', s) && Lacks(',', s)
  }

  /** Modules that accept only one record per insert. */
  predicate SingleInsertOnly(m: Module)
  {
    m == Quotes || m == SalesOrders || m == Invoices || m == PurchaseOrders
  }

  /** Modules for which related records cannot be fetched. */
  predicate NoRelatedRecords(m: Module)
  {
    m == Emails || m == Competitors || m == Integrations
  }

  const BaseUrl := "https://crm.zoho.com/crm/private/json/"
  const AuthTokenUrl := "https://accounts.zoho.com/apiauthtoken/nb/create"

  /** The module and operation an endpoint address designates. */
  datatype Target = Target(crmModule: Module, operation: string)

  /** `BASE_URL . module . '/' . operation`. */
  function Path(m: Module, operation: string): string
  {
    BaseUrl + Name(m) + "/" + operation
  }

  /** How the service reads an address: the segment after the base URL up to
      the next `/` names the module, the remainder the operation. */
  function ParsePath(url: string): Option<Target>
  {
    if |url| >= |BaseUrl| && url[..|BaseUrl|] == BaseUrl then
      var rest := url[|BaseUrl|..];
      match FindFirst('/', rest)
      case None => None
      case Some(k) =>
        match FromName(rest[..k])
        case None => None
        case Some(m) => Some(Target(m, rest[k + 1..]))
    else None
  }

  /** Every path the client builds designates its module and operation. */
  lemma ParsePathRoundTrip(m: Module, operation: string)
    ensures ParsePath(Path(m, operation)) == Some(Target(m, operation))
  {
    var url := Path(m, operation);
    assert url[..|BaseUrl|] == BaseUrl;
    var rest := url[|BaseUrl|..];
    assert rest == Name(m) + ['/'] + operation;
    NameIsWord(m);
    FindFirstAfter('/', Name(m), operation);
    assert rest[..|Name(m)|] == Name(m);
    assert rest[|Name(m)| + 1..] == operation;
    NameRoundTrip(m);
  }

  /** The auth-token address is not under the base URL, so it designates no
      module. */
  lemma AuthTokenUrlHasNoModule()
    ensures ParsePath(AuthTokenUrl) == None
  {
    assert AuthTokenUrl[8] == 'a' && BaseUrl[8] == 'c';
    assert AuthTokenUrl[..|BaseUrl|][8] != BaseUrl[8];
  }
}

=== FILE: entities.dfy ===
/** HTML entity encoding as the client uses it to decide whether a value needs
    protecting. Only the four characters that matter to markup are encoded:
    `&`, `<`, `>` and `"`. `Decode` is its inverse. */
module Entities {

  predicate Special(c: char)
  {
    c == '&' || c == '<' || c == '>' || c == '"'
  }

  predicate HasSpecial(s: string)
  {
    exists i :: 0 <= i < |s| && Special(s[i])
  }

  /** The text that stands for `c` after encoding. */
  function EntityOf(c: char): (r: string)
    ensures |r| >= 1 && r[0] == (if Special(c) then '&' else c)
    ensures Special(c) <==> |r| > 1
  {
    match c
    case '&' => "&amp;"
    case '<' => "&lt;"
    case '>' => "&gt;"
    case '"' => "&quot;"
    case _ => [c]
  }

  /** Stand-in for `htmlentities`: every character replaced by its entity. */
  function Encode(s: string): string
  {
    if s == [] then [] else EntityOf(s[0]) + Encode(s[1..])
  }

  /** Encoding never shortens a string, and keeps its length exactly when it
      holds no special character. */
  lemma {:induction false} EncodeLength(s: string)
    ensures |Encode(s)| >= |s|
    ensures |Encode(s)| == |s| <==> !HasSpecial(s)
  {
    if s != [] {
      EncodeLength(s[1..]);
      if HasSpecial(s[1..]) {
        var i :| 0 <= i < |s[1..]| && Special(s[1..][i]);
        assert Special(s[i + 1]);
      }
      if HasSpecial(s) && !Special(s[0]) {
        var i :| 0 <= i < |s| && Special(s[i]);
        assert s[1..][i - 1] == s[i];
      }
    }
  }

  /** A string without special characters encodes to itself. */
  lemma {:induction false} EncodePlain(s: string)
    requires !HasSpecial(s)
    ensures Encode(s) == s
  {
    if s != [] {
      assert !Special(s[0]);
      assert !HasSpecial(s[1..]) by {
        forall i | 0 <= i < |s[1..]|
          ensures !Special(s[1..][i])
        {
          assert s[1..][i] == s[i + 1];
        }
      }
      EncodePlain(s[1..]);
      assert s == [s[0]] + s[1..];
    }
  }

  /** An encoded string holds no `>`: every special character, `>` among
      them, became an entity. */
  lemma {:induction false} EncodeNoGt(s: string)
    ensures forall i :: 0 <= i < |Encode(s)| ==> Encode(s)[i] != '>'
  {
    if s != [] {
      EncodeNoGt(s[1..]);
      var head := EntityOf(s[0]);
      var tail := Encode(s[1..]);
      assert forall i :: 0 <= i < |head| ==> head[i] != '>';
      forall i | 0 <= i < |Encode(s)|
        ensures Encode(s)[i] != '>'
      {
        if i >= |head| {
          assert Encode(s)[i] == tail[i - |head|];
        }
      }
    }
  }

  /** Encoding changes a value exactly when it holds a special character;
      this is the test the escaper makes. */
  lemma EncodeChangesIff(s: string)
    ensures Encode(s) != s <==> HasSpecial(s)
  {
    EncodeLength(s);
    if !HasSpecial(s) {
      EncodePlain(s);
    }
  }

  /** Stand-in for `html_entity_decode`: each of the four entities read back as
      its character, everything else kept. */
  function Decode(s: string): string
    decreases |s|
  {
    if s == [] then []
    else if |s| >= 5 && s[..5] == "&amp;" then ['&'] + Decode(s[5..])
    else if |s| >= 4 && s[..4] == "&lt;" then ['<'] + Decode(s[4..])
    else if |s| >= 4 && s[..4] == "&gt;" then ['>'] + Decode(s[4..])
    else if |s| >= 6 && s[..6] == "&quot;" then ['"'] + Decode(s[6..])
    else [s[0]] + Decode(s[1..])
  }

  /** Decoding reads one entity back as its character. */
  lemma DecodeEntity(c: char, rest: string)
    ensures Decode(EntityOf(c) + rest) == [c] + Decode(rest)
  {
    if c == '&' {
      DecodeAmp(rest);
    } else if c == '<' {
      DecodeLt(rest);
    } else if c == '>' {
      DecodeGt(rest);
    } else if c == '"' {
      DecodeQuot(rest);
    } else {
      var e := EntityOf(c) + rest;
      assert e[0] == c && e[0] != '&' && e[1..] == rest;
    }
  }

  lemma DecodeAmp(rest: string)
    ensures Decode("&amp;" + rest) == "&" + Decode(rest)
  {
    var e := "&amp;" + rest;
    assert e[..5] == "&amp;" && e[5..] == rest;
  }

  lemma DecodeLt(rest: string)
    ensures Decode("&lt;" + rest) == "<" + Decode(rest)
  {
    var e := "&lt;" + rest;
    assert |e| >= 5 ==> e[..5][1] == 'l';
    assert e[..4] == "&lt;" && e[4..] == rest;
  }

  lemma DecodeGt(rest: string)
    ensures Decode("&gt;" + rest) == ">" + Decode(rest)
  {
    var e := "&gt;" + rest;
    assert |e| >= 5 ==> e[..5][1] == 'g';
    assert e[..4][1] == 'g';
    assert e[..4] == "&gt;" && e[4..] == rest;
  }

  lemma DecodeQuot(rest: string)
    ensures Decode("&quot;" + rest) == "\"" + Decode(rest)
  {
    var e := "&quot;" + rest;
    assert e[..5][1] == 'q' && e[..4][1] == 'q';
    assert e[..6] == "&quot;" && e[6..] == rest;
  }

  /** Decoding undoes encoding. */
  lemma {:induction false} DecodeEncode(s: string)
    ensures Decode(Encode(s)) == s
  {
    if s != [] {
      DecodeEntity(s[0], Encode(s[1..]));
      DecodeEncode(s[1..]);
      assert s == [s[0]] + s[1..];
    }
  }

  /** A string without special characters decodes to itself. */
  lemma DecodePlain(s: string)
    requires !HasSpecial(s)
    ensures Decode(s) == s
  {
    EncodePlain(s);
    DecodeEncode(s);
  }
}

=== FILE: escaper.dfy ===
/** The value escaper (`getEscapedValue`): a field value that entity encoding
    would change is wrapped in a CDATA section (section 2.7 of XML 1.0). Also
    the reading of a field's text by an XML reader, which is what the
    escaping has to survive. */
module Escaper {
  import opened Outcomes
  import opened Entities

  /** The HTTP method the value is escaped for. The source compares it with
      `===` against GET and POST; every other method falls through both
      tests and is `OtherMethod`. */
  datatype HttpMethod = GET | POST | OtherMethod

  const CdataOpen := "<![CDATA["
  const CdataClose := "]]>"

  function Cdata(s: string): string
  {
    CdataOpen + s + CdataClose
  }

  /** `getEscapedValue(value, method)`. */
  function Escape(v: string, m: HttpMethod): (r: string)
    ensures !HasSpecial(v) ==> r == v
    ensures HasSpecial(v) && m == GET ==> r == Cdata(Encode(v))
    ensures HasSpecial(v) && m == POST ==> r == Cdata(v)
    ensures m == OtherMethod ==> r == v
  {
    EncodeChangesIff(v);
    if v != Encode(v) && m == GET then Cdata(Encode(v))
    else if v != Encode(v) && m == POST then Cdata(v)
    else v
  }

  /** `]]>` starts at position `i` of `s`. */
  predicate CloseAt(s: string, i: nat)
  {
    i + 3 <= |s| && s[i] == ']' && s[i + 1] == ']' && s[i + 2] == '>'
  }

  /** The position of the first `]]>` in `s`, where a CDATA section opened
      before `s` ends. */
  function FirstClose(s: string): (r: Option<nat>)
    ensures r.Some? ==> CloseAt(s, r.value)
    ensures r.Some? ==> forall i: nat :: i < r.value ==> !CloseAt(s, i)
    ensures r.None? ==> forall i: nat :: !CloseAt(s, i)
    decreases |s|
  {
    if |s| < 3 then None
    else if CloseAt(s, 0) then Some(0)
    else
      var rest := FirstClose(s[1..]);
      assert forall i: nat :: 1 <= i ==> (CloseAt(s, i) <==> CloseAt(s[1..], i - 1));
      match rest
      case None => None
      case Some(k) => Some(k + 1)
  }

  function Prepend(s: string, o: Option<string>): (r: Option<string>)
    ensures r.Some? <==> o.Some?
    ensures r.Some? ==> r.value == s + o.value
  {
    match o
    case None => None
    case Some(t) => Some(s + t)
  }

  /** The text an XML reader takes from a field's content: character data, in
      which the four entities stand for their characters and `<`, a bare `&`
      and `]]>` may not occur (section 2.4 of XML 1.0), and CDATA sections,
      each ending at the FIRST `]]>` after it opens. None when the content is
      not well formed. */
  function ReadText(e: string): Option<string>
    decreases |e|
  {
    if e == [] then Some([])
    else if |e| >= |CdataOpen| && e[..|CdataOpen|] == CdataOpen then
      match FirstClose(e[|CdataOpen|..])
      case None => None
      case Some(k) =>
        Prepend(e[|CdataOpen|..|CdataOpen| + k], ReadText(e[|CdataOpen| + k + |CdataClose|..]))
    else if e[0] == '<' then None
    else if e[0] == '&' then
      if |e| >= 5 && e[..5] == "&amp;" then Prepend("&", ReadText(e[5..]))
      else if |e| >= 4 && e[..4] == "&lt;" then Prepend("<", ReadText(e[4..]))
      else if |e| >= 4 && e[..4] == "&gt;" then Prepend(">", ReadText(e[4..]))
      else if |e| >= 6 && e[..6] == "&quot;" then Prepend("\"", ReadText(e[6..]))
      else None
    else if CloseAt(e, 0) then None
    else Prepend([e[0]], ReadText(e[1..]))
  }

  /** Text free of `]]>`, followed by `]]>`: the section closes right there. */
  lemma FirstCloseAt(s: string, rest: string)
    requires FirstClose(s).None?
    ensures FirstClose(s + CdataClose + rest) == Some(|s|)
  {
    var e := s + CdataClose + rest;
    assert CloseAt(e, |s|);
    forall i: nat | i < |s|
      ensures !CloseAt(e, i)
    {
      if i + 3 <= |s| {
        assert !CloseAt(s, i);
      } else {
        assert e[i + 2] == ']';
      }
    }
  }

  /** Text without `>` holds no `]]>`. */
  lemma NoGtNoClose(s: string)
    requires forall i :: 0 <= i < |s| ==> s[i] != '>'
    ensures FirstClose(s).None?
  {
  }

  /** A CDATA section around `]]>`-free text reads as that text. */
  lemma ReadSection(s: string, rest: string)
    requires FirstClose(s).None?
    ensures ReadText(Cdata(s) + rest) == Prepend(s, ReadText(rest))
  {
    var e := Cdata(s) + rest;
    assert e[..|CdataOpen|] == CdataOpen;
    assert e[|CdataOpen|..] == s + CdataClose + rest;
    FirstCloseAt(s, rest);
    assert e[|CdataOpen|..|CdataOpen| + |s|] == s;
    assert e[|CdataOpen| + |s| + |CdataClose|..] == rest;
  }

  /** A whole field that is one CDATA section around `]]>`-free text reads as
      that text. */
  lemma ReadWholeSection(s: string)
    requires FirstClose(s).None?
    ensures ReadText(Cdata(s)) == Some(s)
  {
    ReadSection(s, []);
    assert Cdata(s) + [] == Cdata(s);
    assert ReadText([]) == Some([]);
    assert s + [] == s;
  }

  /** Text without special characters reads as itself. */
  lemma {:induction false} ReadPlain(v: string)
    requires !HasSpecial(v)
    ensures ReadText(v) == Some(v)
  {
    if v != [] {
      assert !Special(v[0]);
      assert |v| >= |CdataOpen| ==> v[..|CdataOpen|][0] == v[0];
      if |v| >= 3 {
        assert !Special(v[2]);
      }
      assert !HasSpecial(v[1..]) by {
        forall i | 0 <= i < |v[1..]|
          ensures !Special(v[1..][i])
        {
          assert v[1..][i] == v[i + 1];
        }
      }
      ReadPlain(v[1..]);
      assert v == [v[0]] + v[1..];
    }
  }

  /** One encoded character, followed by text that holds no `>`, reads as the
      character. */
  lemma ReadEntityOf(c: char, rest: string)
    requires forall i :: 0 <= i < |rest| ==> rest[i] != '>'
    ensures ReadText(EntityOf(c) + rest) == Prepend([c], ReadText(rest))
  {
    if c == '&' {
      ReadAmp(rest);
    } else if c == '<' {
      ReadLt(rest);
    } else if c == '>' {
      ReadGt(rest);
    } else if c == '"' {
      ReadQuot(rest);
    } else {
      ReadOrdinary(c, rest);
    }
  }

  lemma ReadOrdinary(c: char, rest: string)
    requires !Special(c)
    requires forall i :: 0 <= i < |rest| ==> rest[i] != '>'
    ensures ReadText([c] + rest) == Prepend([c], ReadText(rest))
  {
    var e := [c] + rest;
    assert e[0] == c && e[1..] == rest;
    assert |e| >= |CdataOpen| ==> e[..|CdataOpen|][0] == c;
    assert |e| >= 3 ==> e[2] == rest[1];
  }

  lemma ReadAmp(rest: string)
    ensures ReadText("&amp;" + rest) == Prepend("&", ReadText(rest))
  {
    var e := "&amp;" + rest;
    assert |e| >= |CdataOpen| ==> e[..|CdataOpen|][0] == '&';
    assert e[..5] == "&amp;" && e[5..] == rest;
  }

  lemma ReadLt(rest: string)
    ensures ReadText("&lt;" + rest) == Prepend("<", ReadText(rest))
  {
    var e := "&lt;" + rest;
    assert |e| >= |CdataOpen| ==> e[..|CdataOpen|][0] == '&';
    assert |e| >= 5 ==> e[..5][1] == 'l';
    assert e[..4] == "&lt;" && e[4..] == rest;
  }

  lemma ReadGt(rest: string)
    ensures ReadText("&gt;" + rest) == Prepend(">", ReadText(rest))
  {
    var e := "&gt;" + rest;
    assert |e| >= |CdataOpen| ==> e[..|CdataOpen|][0] == '&';
    assert |e| >= 5 ==> e[..5][1] == 'g';
    assert e[..4][1] == 'g';
    assert e[..4] == "&gt;" && e[4..] == rest;
  }

  lemma ReadQuot(rest: string)
    ensures ReadText("&quot;" + rest) == Prepend("\"", ReadText(rest))
  {
    var e := "&quot;" + rest;
    assert |e| >= |CdataOpen| ==> e[..|CdataOpen|][0] == '&';
    assert e[..5][1] == 'q' && e[..4][1] == 'q';
    assert e[..6] == "&quot;" && e[6..] == rest;
  }

  /** Encoded text, read as character data, gives back the original. */
  lemma {:induction false} ReadEncode(v: string)
    ensures ReadText(Encode(v)) == Some(v)
  {
    if v != [] {
      EncodeNoGt(v[1..]);
      ReadEntityOf(v[0], Encode(v[1..]));
      ReadEncode(v[1..]);
      assert v == [v[0]] + v[1..];
    }
  }

  /** POST round trip: the reader gets the original value back, provided the
      value holds no `]]>`. */
  lemma PostEscapeRoundTrip(v: string)
    ensures FirstClose(v).None? ==> ReadText(Escape(v, POST)) == Some(v)
  {
    if !HasSpecial(v) {
      ReadPlain(v);
    } else if FirstClose(v).None? {
      ReadWholeSection(v);
    }
  }

  /** A POST value holding `]]>` does not survive: its section ends early and
      the rest is not well formed. */
  lemma PostEscapeBreaks()
    ensures FirstClose("a]]>b").Some?
    ensures ReadText(Escape("a]]>b", POST)) == None
  {
    var v := "a]]>b";
    assert CloseAt(v, 1);
    assert Special(v[3]);
    var e := Cdata(v);
    assert e[..|CdataOpen|] == CdataOpen;
    var body := e[|CdataOpen|..];
    assert body == "a]]>b]]>";
    assert !CloseAt(body, 0) && CloseAt(body, 1);
    assert FirstClose(body) == Some(1);
    var rest := e[|CdataOpen| + 1 + |CdataClose|..];
    assert rest == "b]]>";
    assert !CloseAt(rest, 0);
    assert rest[1..] == "]]>";
    assert CloseAt(rest[1..], 0);
    assert ReadText(rest[1..]) == None;
  }

  /** GET round trip: the reader gets the original value back after decoding
      the entities, whatever the value. */
  lemma GetEscapeRoundTrip(v: string)
    ensures ReadText(Escape(v, GET)).Some?
    ensures Decode(ReadText(Escape(v, GET)).value) == v
  {
    if HasSpecial(v) {
      EncodeNoGt(v);
      NoGtNoClose(Encode(v));
      ReadWholeSection(Encode(v));
      DecodeEncode(v);
    } else {
      ReadPlain(v);
      DecodePlain(v);
    }
  }

  /** The POST escaping as evidently intended: a value holding `]]>` cannot
      go into one CDATA section, so it is entity encoded instead. Every other
      value is escaped as before. */
  function EscapeSafe(v: string, m: HttpMethod): (r: string)
    ensures FirstClose(v).None? ==> r == Escape(v, m)
    ensures m != POST ==> r == Escape(v, m)
    ensures FirstClose(v).Some? && m == POST ==> r == Encode(v)
  {
    if m == POST && FirstClose(v).Some? then Encode(v) else Escape(v, m)
  }

  /** Every POST value now reads back as itself. */
  lemma SafePostRoundTrip(v: string)
    ensures ReadText(EscapeSafe(v, POST)) == Some(v)
  {
    if FirstClose(v).Some? {
      ReadEncode(v);
    } else {
      PostEscapeRoundTrip(v);
    }
  }

  /** Escaping never loses information, for either method the client uses. */
  lemma EscapeInjective(v: string, w: string, m: HttpMethod)
    requires m == GET || m == POST
    ensures Escape(v, m) == Escape(w, m) ==> v == w
  {
    if m == GET {
      GetEscapeRoundTrip(v);
      GetEscapeRoundTrip(w);
    } else if Escape(v, m) == Escape(w, m) {
      if HasSpecial(v) && HasSpecial(w) {
        assert Cdata(v)[|CdataOpen|..|Cdata(v)| - |CdataClose|] == v;
        assert Cdata(w)[|CdataOpen|..|Cdata(w)| - |CdataClose|] == w;
      }
    }
  }
}

=== FILE: json.dfy ===
/** The decoded JSON document the client inspects, and PHP's access to it:
    `json_decode` without the associative flag gives objects, whose missing
    properties read as null. */
module Json {
  import opened Outcomes
  import opened Strings

  /** A decoded JSON value. Numbers are integers here. */
  datatype Json =
    | JNull
    | JBool(b: bool)
    | JNum(n: int)
    | JStr(s: string)
    | JArr(items: seq<Json>)
    | JObj(members: seq<(string, Json)>)

  /** The value of the last member named `k`; a repeated name keeps its last
      value when decoded. */
  function LastMember(ms: seq<(string, Json)>, k: string): Json
  {
    if ms == [] then JNull
    else if ms[|ms| - 1].0 == k then ms[|ms| - 1].1
    else LastMember(ms[..|ms| - 1], k)
  }

  /** `$j->k`: null unless `j` is an object with a member `k`. */
  function Member(j: Json, k: string): Json
  {
    match j
    case JObj(ms) => LastMember(ms, k)
    case _ => JNull
  }

  /** `isset($x)`: present and not null. */
  predicate IsSet(j: Json)
  {
    j != JNull
  }

  /** PHP's string conversion of a decoded value, as used when the value is
      concatenated into a message; objects cannot be converted. */
  function AsText(j: Json): (r: Option<string>)
    ensures r.None? <==> j.JObj?
  {
    match j
    case JNull => Some("")
    case JBool(b) => Some(if b then "1" else "")
    case JNum(n) => Some(IntToString(n))
    case JStr(s) => Some(s)
    case JArr(_) => Some("Array")
    case JObj(_) => None
  }

  /** `$json->response->error` of a decoded body; an undecodable body (None)
      reads as null. */
  function ErrorNode(doc: Option<Json>): Json
  {
    match doc
    case None => JNull
    case Some(j) => Member(Member(j, "response"), "error")
  }

  /** The document the service sends for an error:
      `{"response":{"error":{"code":…,"message":…}}}`. */
  function ErrorEnvelope(code: int, message: string): Json
  {
    JObj([("response", JObj([("error", JObj([("code", JNum(code)), ("message", JStr(message))]))]))])
  }
}

=== FILE: markup.dfy ===
/** The xmlData markup dialect as a tree, and its rendering to text:
    `<Root><row no="1"><FL val="key">text</FL>…</row>…</Root>`. */
module Markup {
  import opened Strings

  /** One field element `<tag val="key">text</tag>`; the tag is `FL` for
      record fields and `option` for lead-conversion options. */
  datatype Field = Field(tag: string, key: string, text: string)

  /** One `<row no="…">` element. */
  datatype Row = Row(no: nat, fields: seq<Field>)

  /** A document: one root element named after a module, holding the rows. */
  datatype Doc = Doc(root: string, rows: seq<Row>)

  function RenderField(f: Field): string
  {
    "<" + f.tag + " val=\"" + f.key + "\">" + f.text + "</" + f.tag + ">"
  }

  /** The renderings of a list's elements, one after another, in order. */
  function ConcatMap<T>(render: T -> string, xs: seq<T>): string
  {
    if xs == [] then "" else ConcatMap(render, xs[..|xs| - 1]) + render(xs[|xs| - 1])
  }

  /** Extending a prefix by one element appends that element's rendering. */
  lemma ConcatMapSnoc<T>(render: T -> string, xs: seq<T>, k: nat)
    requires k < |xs|
    ensures ConcatMap(render, xs[..k + 1]) == ConcatMap(render, xs[..k]) + render(xs[k])
  {
    assert xs[..k + 1][..k] == xs[..k];
  }

  /** The keys of a list of fields, in order. */
  function FieldKeys(fs: seq<Field>): (ks: seq<string>)
    ensures |ks| == |fs|
    ensures forall j :: 0 <= j < |fs| ==> ks[j] == fs[j].key
  {
    seq(|fs|, j requires 0 <= j < |fs| => fs[j].key)
  }

  function RenderFields(fs: seq<Field>): string
  {
    ConcatMap(RenderField, fs)
  }

  function RowOpen(no: nat): string
  {
    RowNoOpen + NatToString(no) + RowNoEnd
  }

  /** The literal text of a row's opening tag before and after its number. */
  const RowNoOpen := "<row no=\""
  const RowNoEnd := "\">"

  /** The number a row's opening tag carries: the text between `no="` and
      the closing `">`. */
  function RowNumberText(t: string): string
  {
    if |t| >= |RowNoOpen| + |RowNoEnd| then t[|RowNoOpen|..|t| - |RowNoEnd|] else ""
  }

  /** A row's opening tag carries its number in decimal, which reads back as
      that number, so rows with distinct numbers open with distinct tags. */
  lemma RowOpenReadsNumber(no: nat, other: nat)
    ensures AllDigits(RowNumberText(RowOpen(no)))
    ensures ParseNat(RowNumberText(RowOpen(no))) == no
    ensures RowOpen(no) == RowOpen(other) ==> no == other
  {
    var t := RowOpen(no);
    assert RowNumberText(t) == NatToString(no);
    ParseNatToString(no);
    NatToStringInjective(no, other);
  }

  const RowClose := "</row>"

  function RenderRow(r: Row): string
  {
    RowOpen(r.no) + RenderFields(r.fields) + RowClose
  }

  function RenderRows(rs: seq<Row>): string
  {
    ConcatMap(RenderRow, rs)
  }

  function Open(root: string): string
  {
    "<" + root + ">"
  }

  function Close(root: string): string
  {
    "</" + root + ">"
  }

  function Render(d: Doc): string
  {
    Open(d.root) + RenderRows(d.rows) + Close(d.root)
  }

  /** A document without rows renders as an empty root element. */
  lemma RenderEmpty(root: string)
    ensures Render(Doc(root, [])) == "<" + root + "></" + root + ">"
  {
  }
}

=== FILE: outcomes.dfy ===
/** Failure-carrying results of the client, and the exception messages the
    client raises for each kind of failure. */
module Outcomes {

  datatype Option<+T> = None | Some(value: T)

  /** Every exception the client itself raises or lets through. */
  datatype Error =
    /** more than one record for a module that accepts one record per insert */
    | MultipleInsertUnsupported(moduleName: string)
    /** more than 100 records in one batch */
    | TooManyRecords
    /** getRelatedRecords on Emails, Competitors or Integrations */
    | ModuleUnsupported(moduleName: string)
    /** the service answered with an error envelope */
    | Service(code: string, message: string)
    /** the transport itself failed; the reason is passed on unchanged */
    | Transport(reason: string)
    /** an error envelope whose code or message is an object, which PHP cannot
        turn into a string */
    | NotStringable

  datatype Outcome<+T> = Ok(value: T) | Fail(error: Error) {
    predicate IsFailure() { Fail? }

    function PropagateFailure<U>(): Outcome<U>
      requires Fail?
    {
      Fail(error)
    }

    function Extract(): T
      requires Ok?
    {
      value
    }
  }

  /** The text of the exception raised for `e`. */
  function Message(e: Error): string
  {
    match e
    case MultipleInsertUnsupported(m) => "Module " + m + " does not support multiple inserts"
    case TooManyRecords =>
      "Only the first 100 records will be considered when inserting multiple records."
    case ModuleUnsupported(m) => "Module " + m + " not supported for this function"
    case Service(code, message) => "Error " + code + ": " + message
    case Transport(reason) => reason
    case NotStringable => "Object of class stdClass could not be converted to string"
  }
}

=== FILE: params.dfy ===
/** Request parameters as PHP keeps them: an ordered array from string keys to
    values, in which writing an existing key replaces its value in place and
    writing a new key appends it. */
module Params {
  import opened Outcomes

  /** A parameter value: a string, an integer, or PHP's null. */
  datatype Value = Str(s: string) | Int(i: int) | Null

  type Params = seq<(string, Value)>

  /** The keys, in order. */
  function KeyList(p: Params): (ks: seq<string>)
    ensures |ks| == |p|
    ensures forall i :: 0 <= i < |p| ==> ks[i] == p[i].0
  {
    seq(|p|, i requires 0 <= i < |p| => p[i].0)
  }

  /** `p` is the array literal `array(ks[0] => vs[0], ks[1] => vs[1], …)`:
      the keys `ks` in order, each with the value at the same position. */
  predicate Literal(p: Params, ks: seq<string>, vs: seq<Value>)
  {
    KeyList(p) == ks && |vs| == |p| && forall i :: 0 <= i < |p| ==> p[i].1 == vs[i]
  }

  /** The array literal `array(ks[0] => vs[0], ks[1] => vs[1], …)`. */
  function Pairs(ks: seq<string>, vs: seq<Value>): (p: Params)
    requires |ks| == |vs|
    ensures Literal(p, ks, vs)
  {
    seq(|ks|, i requires 0 <= i < |ks| => (ks[i], vs[i]))
  }

  function Keys(p: Params): set<string>
  {
    set i | 0 <= i < |p| :: p[i].0
  }

  /** No key occurs twice, as in every PHP array. */
  predicate Distinct(p: Params)
  {
    forall i, j :: 0 <= i < j < |p| ==> p[i].0 != p[j].0
  }

  /** `$p[$k]`: the value stored under `k`, if any. */
  function Lookup(p: Params, k: string): Option<Value>
  {
    if p == [] then None
    else if p[0].0 == k then Some(p[0].1)
    else Lookup(p[1..], k)
  }

  lemma KeysCons(p: Params)
    requires p != []
    ensures Keys(p) == {p[0].0} + Keys(p[1..])
  {
    assert forall i :: 0 < i < |p| ==> p[i] == p[1..][i - 1];
    forall k | k in Keys(p[1..])
      ensures k in Keys(p)
    {
      var i :| 0 <= i < |p[1..]| && p[1..][i].0 == k;
      assert p[i + 1].0 == k;
    }
  }

  lemma KeysSnoc(p: Params)
    requires p != []
    ensures Keys(p) == Keys(p[..|p| - 1]) + {p[|p| - 1].0}
  {
    assert forall i :: 0 <= i < |p| - 1 ==> p[i] == p[..|p| - 1][i];
  }

  /** A key is found exactly when it is present. */
  lemma {:induction false} LookupFound(p: Params, k: string)
    ensures Lookup(p, k).None? <==> k !in Keys(p)
  {
    if p != [] {
      KeysCons(p);
      LookupFound(p[1..], k);
    }
  }

  /** `$p[$k] = $v`: replace the value in place when `k` is present, else
      append the pair. */
  function Set(p: Params, k: string, v: Value): Params
  {
    if p == [] then [(k, v)]
    else if p[0].0 == k then [(k, v)] + p[1..]
    else [p[0]] + Set(p[1..], k, v)
  }

  /** After the write, `k` holds `v` and every other key is unchanged. */
  lemma {:induction false} SetLookup(p: Params, k: string, v: Value, k': string)
    ensures Lookup(Set(p, k, v), k') == if k' == k then Some(v) else Lookup(p, k')
  {
    if p != [] && p[0].0 != k {
      SetLookup(p[1..], k, v, k');
      assert Set(p, k, v)[1..] == Set(p[1..], k, v);
    }
  }

  /** The write adds `k` to the keys, keeps every existing key in its
      position, and adds at most one pair. */
  lemma {:induction false} SetShape(p: Params, k: string, v: Value)
    ensures Keys(Set(p, k, v)) == Keys(p) + {k}
    ensures |p| <= |Set(p, k, v)| <= |p| + 1
    ensures forall i :: 0 <= i < |p| ==> Set(p, k, v)[i].0 == p[i].0
  {
    var r := Set(p, k, v);
    if p == [] {
      assert r[0].0 == k;
    } else if p[0].0 == k {
      KeysCons(p);
      KeysCons(r);
      assert r[1..] == p[1..];
    } else {
      var t := Set(p[1..], k, v);
      SetShape(p[1..], k, v);
      assert r[1..] == t;
      KeysCons(p);
      KeysCons(r);
      assert forall i :: 0 < i < |p| ==> r[i] == t[i - 1] && p[i] == p[1..][i - 1];
    }
  }

  /** The write never introduces a duplicate key. */
  lemma {:induction false} SetDistinct(p: Params, k: string, v: Value)
    requires Distinct(p)
    ensures Distinct(Set(p, k, v))
  {
    var r := Set(p, k, v);
    if p != [] && p[0].0 != k {
      var t := Set(p[1..], k, v);
      assert Distinct(p[1..]) by {
        assert forall i :: 0 <= i < |p| - 1 ==> p[1..][i] == p[i + 1];
      }
      SetDistinct(p[1..], k, v);
      SetShape(p[1..], k, v);
      KeysCons(p);
      assert r[1..] == t;
      forall j | 0 < j < |r|
        ensures r[0].0 != r[j].0
      {
        assert r[j] == t[j - 1];
        assert r[j].0 in Keys(t);
      }
    }
  }

  /** The value under `k` in the LAST pair that has it: which of several
      writes of one key survives a merge. */
  function LastLookup(p: Params, k: string): Option<Value>
  {
    if p == [] then None
    else if p[|p| - 1].0 == k then Some(p[|p| - 1].1)
    else LastLookup(p[..|p| - 1], k)
  }

  /** In a PHP array, where keys are distinct, the first and the last pair
      with a key are the same pair. */
  lemma {:induction false} LastLookupDistinct(p: Params, k: string)
    requires Distinct(p)
    ensures LastLookup(p, k) == Lookup(p, k)
  {
    if p != [] {
      var q := p[..|p| - 1];
      assert Distinct(q);
      LastLookupDistinct(q, k);
      if p[|p| - 1].0 == k {
        assert k !in Keys(q);
        LookupFound(q, k);
        LookupAppend(q, p[|p| - 1], k);
      } else {
        LookupAppend(q, p[|p| - 1], k);
      }
      assert q + [p[|p| - 1]] == p;
    }
  }

  lemma {:induction false} LookupAppend(q: Params, last: (string, Value), k: string)
    ensures Lookup(q + [last], k) ==
      if Lookup(q, k).Some? then Lookup(q, k) else if last.0 == k then Some(last.1) else None
  {
    if q != [] {
      assert (q + [last])[1..] == q[1..] + [last];
      LookupAppend(q[1..], last, k);
    }
  }

  /** `array_merge($a, $b)` for string keys: each pair of `b`, in order,
      written into `a`. */
  function Merge(a: Params, b: Params): Params
  {
    if b == [] then a else Set(Merge(a, b[..|b| - 1]), b[|b| - 1].0, b[|b| - 1].1)
  }

  /** After a merge, a key holds its last value in `b`, or its value in `a`
      when `b` does not have it. */
  lemma {:induction false} MergeLookup(a: Params, b: Params, k: string)
    ensures Lookup(Merge(a, b), k) ==
      if k in Keys(b) then LastLookup(b, k) else Lookup(a, k)
  {
    if b != [] {
      var b' := b[..|b| - 1];
      KeysSnoc(b);
      MergeLookup(a, b', k);
      SetLookup(Merge(a, b'), b[|b| - 1].0, b[|b| - 1].1, k);
    }
  }

  /** A merge has exactly the keys of both arrays, keeps the keys of `a` in
      their positions, and introduces no duplicate key. */
  lemma {:induction false} MergeShape(a: Params, b: Params)
    ensures Keys(Merge(a, b)) == Keys(a) + Keys(b)
    ensures |a| <= |Merge(a, b)| <= |a| + |b|
    ensures forall i :: 0 <= i < |a| ==> Merge(a, b)[i].0 == a[i].0
    ensures Distinct(a) ==> Distinct(Merge(a, b))
  {
    if b != [] {
      var b' := b[..|b| - 1];
      KeysSnoc(b);
      MergeShape(a, b');
      SetShape(Merge(a, b'), b[|b| - 1].0, b[|b| - 1].1);
      if Distinct(a) {
        SetDistinct(Merge(a, b'), b[|b| - 1].0, b[|b| - 1].1);
      }
    }
  }
}

=== FILE: serializer.dfy ===
/** The record serializer (`transformRecordsToXmlData`): a batch of records
    becomes the xmlData document of the active module. */
module Serializer {
  import opened Outcomes
  import opened Strings
  import opened Entities
  import opened Escaper
  import opened CrmModules
  import opened Markup

  /** The largest batch the client accepts. */
  const MaxRecords := 100

  /** A record: field names with their values, in insertion order. */
  type Record = seq<(string, string)>

  /** The field elements of one record, values escaped for method `m`. */
  function RecordFields(rec: Record, m: HttpMethod): seq<Field>
  {
    seq(|rec|, j requires 0 <= j < |rec| => Field("FL", rec[j].0, Escape(rec[j].1, m)))
  }

  /** One row per record, numbered from 1. */
  function RecordRows(records: seq<Record>, m: HttpMethod): seq<Row>
  {
    seq(|records|, i requires 0 <= i < |records| => Row(i + 1, RecordFields(records[i], m)))
  }

  /** The document for a batch: one row per record, numbered from 1 in input
      order, one `FL` field per record entry, keyed by the entry's name, in the
      record's order, whose text is the entry's value escaped for `m`. */
  function RecordsDoc(mod: Module, records: seq<Record>, m: HttpMethod): (d: Doc)
    ensures d.root == Name(mod)
    ensures |d.rows| == |records|
    ensures forall i :: 0 <= i < |records| ==>
      d.rows[i].no == i + 1 && |d.rows[i].fields| == |records[i]|
    ensures forall i, j :: 0 <= i < |records| && 0 <= j < |records[i]| ==>
      d.rows[i].fields[j].tag == "FL" && d.rows[i].fields[j].key == records[i][j].0
    ensures forall i, j :: 0 <= i < |records| && 0 <= j < |records[i]| ==>
      d.rows[i].fields[j].text == Escape(records[i][j].1, m)
  {
    Doc(Name(mod), RecordRows(records, m))
  }

  /** Every field text reads back as the record's value: after entity
      decoding for GET, and directly for POST when the value holds no `]]>`
      (a POST value holding one does not, see `Escaper.PostEscapeBreaks`). */
  lemma FieldTextsReadBack(mod: Module, records: seq<Record>, m: HttpMethod)
    ensures forall i, j :: 0 <= i < |records| && 0 <= j < |records[i]| ==>
      var text := RecordsDoc(mod, records, m).rows[i].fields[j].text;
      && (m == GET ==> ReadText(text).Some? && Decode(ReadText(text).value) == records[i][j].1)
      && (m == POST && FirstClose(records[i][j].1).None? ==> ReadText(text) == Some(records[i][j].1))
  {
    forall i, j | 0 <= i < |records| && 0 <= j < |records[i]|
      ensures var text := RecordsDoc(mod, records, m).rows[i].fields[j].text;
        && (m == GET ==> ReadText(text).Some? && Decode(ReadText(text).value) == records[i][j].1)
        && (m == POST && FirstClose(records[i][j].1).None? ==> ReadText(text) == Some(records[i][j].1))
    {
      PostEscapeRoundTrip(records[i][j].1);
      GetEscapeRoundTrip(records[i][j].1);
    }
  }

  /** The functional reference for `transformRecordsToXmlData`: the two batch
      rules, checked in the source's order, then the rendered document. */
  function XmlData(mod: Module, records: seq<Record>, m: HttpMethod): (r: Outcome<string>)
    ensures r.Ok? <==> (|records| <= 1 || !SingleInsertOnly(mod)) && |records| <= MaxRecords
    ensures |records| > 1 && SingleInsertOnly(mod) ==>
      r == Fail(MultipleInsertUnsupported(Name(mod)))
    ensures (|records| <= 1 || !SingleInsertOnly(mod)) && |records| > MaxRecords ==>
      r == Fail(TooManyRecords)
    ensures r.Ok? ==> r.value == Render(RecordsDoc(mod, records, m))
  {
    if |records| > 1 && SingleInsertOnly(mod) then Fail(MultipleInsertUnsupported(Name(mod)))
    else if |records| > MaxRecords then Fail(TooManyRecords)
    else Ok(Render(RecordsDoc(mod, records, m)))
  }

  /** An empty batch gives an empty root element. */
  lemma XmlDataEmpty(mod: Module, m: HttpMethod)
    ensures XmlData(mod, [], m) == Ok("<" + Name(mod) + "></" + Name(mod) + ">")
  {
    RenderEmpty(Name(mod));
  }

  /** The inner pass of the serializer: one `FL` element per entry of the
      record, appended in the record's order. */
  method AppendFields(xml: string, rec: Record, m: HttpMethod) returns (out: string)
    ensures out == xml + RenderFields(RecordFields(rec, m))
  {
    ghost var fields := RecordFields(rec, m);
    out := xml;
    var j := 0;
    while j < |rec|
      invariant 0 <= j <= |rec|
      invariant out == xml + RenderFields(fields[..j])
    {
      var value := Escape(rec[j].1, m);
      assert fields[j] == Field("FL", rec[j].0, value);
      ConcatMapSnoc(RenderField, fields, j);
      AppendAssoc3(xml, RenderFields(fields[..j]), RenderField(fields[j]));
      out := out + RenderField(Field("FL", rec[j].0, value));
      j := j + 1;
    }
    assert fields[..j] == fields;
  }

  /** One `row` element: its opening tag with the row number, the record's
      fields, its closing tag. */
  method AppendRow(xml: string, rowNumber: nat, rec: Record, m: HttpMethod) returns (out: string)
    ensures out == xml + RenderRow(Row(rowNumber, RecordFields(rec, m)))
  {
    out := xml + RowOpen(rowNumber);
    out := AppendFields(out, rec, m);
    out := out + RowClose;
    AppendAssoc(xml, RowOpen(rowNumber), RenderFields(RecordFields(rec, m)), RowClose);
  }

  /** The outer pass of the serializer: one row per record, numbered from 1. */
  method AppendRows(xml: string, records: seq<Record>, m: HttpMethod) returns (out: string)
    ensures out == xml + RenderRows(RecordRows(records, m))
  {
    ghost var rows := RecordRows(records, m);
    out := xml;
    var rowNumber := 1;
    var i := 0;
    while i < |records|
      invariant 0 <= i <= |records|
      invariant rowNumber == i + 1
      invariant out == xml + RenderRows(rows[..i])
    {
      out := AppendRow(out, rowNumber, records[i], m);
      assert rows[i] == Row(rowNumber, RecordFields(records[i], m));
      ConcatMapSnoc(RenderRow, rows, i);
      AppendAssoc3(xml, RenderRows(rows[..i]), RenderRow(rows[i]));
      rowNumber := rowNumber + 1;
      i := i + 1;
    }
    assert rows[..i] == rows;
  }

  /** The serializer as the source writes it: the two checks, then one pass
      over the records appending each row. */
  method TransformRecordsToXmlData(mod: Module, records: seq<Record>, m: HttpMethod)
    returns (r: Outcome<string>)
    ensures r == XmlData(mod, records, m)
  {
    if |records| > 1 && SingleInsertOnly(mod) {
      return Fail(MultipleInsertUnsupported(Name(mod)));
    }
    if |records| > MaxRecords {
      return Fail(TooManyRecords);
    }
    var root := Name(mod);
    var xml := AppendRows(Open(root), records, m);
    xml := xml + Close(root);
    return Ok(xml);
  }
}

=== FILE: strings.dfy ===
/** String helpers the client relies on: PHP's decimal rendering of integers,
    `implode`, and the splitting and searching that undo them. */
module Strings {
  import opened Outcomes

  predicate IsDigit(c: char)
  {
    '0' <= c <= '9'
  }

  predicate AllDigits(s: string)
  {
    forall i :: 0 <= i < |s| ==> IsDigit(s[i])
  }

  function DigitChar(d: nat): (c: char)
    requires d < 10
    ensures IsDigit(c)
  {
    "0123456789"[d]
  }

  function DigitValue(c: char): (d: nat)
    requires IsDigit(c)
    ensures d < 10
  {
    (c as int - '0' as int) as nat
  }

  lemma DigitRoundTrip(d: nat)
    requires d < 10
    ensures DigitValue(DigitChar(d)) == d
  {
  }

  /** Decimal rendering of a natural number, most significant digit first and
      without leading zeros, as PHP's string conversion writes it. */
  function NatToString(n: nat): (r: string)
    ensures |r| >= 1 && AllDigits(r)
    ensures n >= 10 ==> r[0] != '0'
  {
    if n < 10 then [DigitChar(n)] else NatToString(n / 10) + [DigitChar(n % 10)]
  }

  /** The value of a string of decimal digits. */
  function ParseNat(s: string): nat
    requires AllDigits(s)
  {
    if s == [] then 0 else 10 * ParseNat(s[..|s| - 1]) + DigitValue(s[|s| - 1])
  }

  /** Reading back a rendered number gives the number. */
  lemma {:induction false} ParseNatToString(n: nat)
    ensures ParseNat(NatToString(n)) == n
  {
    var r := NatToString(n);
    if n < 10 {
      DigitRoundTrip(n);
      assert r[..0] == [];
    } else {
      ParseNatToString(n / 10);
      DigitRoundTrip(n % 10);
      assert r[..|r| - 1] == NatToString(n / 10);
    }
  }

  /** Distinct numbers render as distinct strings. */
  lemma NatToStringInjective(a: nat, b: nat)
    ensures NatToString(a) == NatToString(b) ==> a == b
  {
    ParseNatToString(a);
    ParseNatToString(b);
  }

  /** PHP's string conversion of an integer: a minus sign, then the digits. */
  function IntToString(i: int): (r: string)
    ensures |r| >= 1
    ensures r[0] == '-' <==> i < 0
    ensures i >= 0 ==> r == NatToString(i)
  {
    if i < 0 then "-" + NatToString(-i) else NatToString(i)
  }

  /** `implode(sep, parts)`: the parts with one separator between neighbours. */
  function Join(sep: char, parts: seq<string>): string
  {
    if |parts| == 0 then ""
    else if |parts| == 1 then parts[0]
    else parts[0] + [sep] + Join(sep, parts[1..])
  }

  /** The pieces between occurrences of `sep`; never empty. */
  function Split(sep: char, s: string): (r: seq<string>)
    ensures |r| >= 1
  {
    if s == [] then [""]
    else if s[0] == sep then [""] + Split(sep, s[1..])
    else
      var t := Split(sep, s[1..]);
      [[s[0]] + t[0]] + t[1..]
  }

  predicate Lacks(c: char, s: string)
  {
    forall i :: 0 <= i < |s| ==> s[i] != c
  }

  /** A prefix without separators is glued to the first piece of the rest. */
  lemma {:induction false} SplitPrefix(sep: char, p: string, tail: string)
    requires Lacks(sep, p)
    ensures Split(sep, p + tail) == [p + Split(sep, tail)[0]] + Split(sep, tail)[1..]
  {
    if p != [] {
      assert (p + tail)[0] == p[0];
      assert (p + tail)[1..] == p[1..] + tail;
      SplitPrefix(sep, p[1..], tail);
      assert [p[0]] + (p[1..] + Split(sep, tail)[0]) == p + Split(sep, tail)[0];
    } else {
      var t := Split(sep, tail);
      assert p + tail == tail && p + t[0] == t[0];
      assert t == [t[0]] + t[1..];
    }
  }

  /** Splitting the joined parts at the separator gives the parts back, when no
      part contains the separator. */
  lemma {:induction false} SplitJoin(sep: char, parts: seq<string>)
    requires |parts| >= 1
    requires forall i :: 0 <= i < |parts| ==> Lacks(sep, parts[i])
    ensures Split(sep, Join(sep, parts)) == parts
  {
    if |parts| == 1 {
      SplitPrefix(sep, parts[0], "");
      assert parts[0] + "" == parts[0];
    } else {
      var rest := [sep] + Join(sep, parts[1..]);
      assert Join(sep, parts) == parts[0] + rest;
      SplitPrefix(sep, parts[0], rest);
      SplitJoin(sep, parts[1..]);
      assert rest[0] == sep && rest[1..] == Join(sep, parts[1..]);
      assert Split(sep, rest) == [""] + parts[1..];
      assert parts[0] + "" == parts[0];
      assert parts == [parts[0]] + parts[1..];
    }
  }

  /** Position of the first `c` in `s`. */
  function FindFirst(c: char, s: string): (r: Option<nat>)
    ensures r.Some? ==> r.value < |s| && s[r.value] == c && Lacks(c, s[..r.value])
    ensures r.None? ==> Lacks(c, s)
  {
    if s == [] then None
    else if s[0] == c then Some(0)
    else match FindFirst(c, s[1..])
      case None => None
      case Some(k) =>
        assert s[1..][..k] == s[1..k + 1];
        Some(k + 1)
  }

  /** The first `c` after a stretch without `c` is found right after it. */
  lemma {:induction false} FindFirstAfter(c: char, a: string, b: string)
    requires Lacks(c, a)
    ensures FindFirst(c, a + [c] + b) == Some(|a|)
  {
    if a != [] {
      assert (a + [c] + b)[1..] == a[1..] + [c] + b;
      FindFirstAfter(c, a[1..], b);
    }
  }

  /** Concatenation regrouped, as the builders that append piece by piece
      need it. */
  lemma AppendAssoc(a: string, b: string, c: string, d: string)
    ensures ((a + b) + c) + d == a + ((b + c) + d)
  {
  }

  lemma AppendAssoc3(a: string, b: string, c: string)
    ensures (a + b) + c == a + (b + c)
  {
  }
}
